=== FILE: README.md ===
# kryonet remote invocation (rmi2) and TCP framing, in Dafny

This project models the second-generation remote method invocation layer of
kryonet, plus the length-prefixed framing its messages travel in over TCP.

The invocation space (`ObjectSpaceV2`) has the following parts:

- A method registry. Each registered method gets an id and a cached
  descriptor (`CachedMethod`).
- An object table of hosted objects.
- A per-connection cache of proxies.
- Transaction bookkeeping: an `AtomicInteger` transaction counter, the last
  transaction id, the records of non-blocking calls (`AsyncExecution`) and a
  result store keyed by transaction id (`MultiResultLock`).

A call through a proxy goes through these steps:

1. The call consults the method's calling convention (`RMI`). When the proxy
   was created with a delegate, the delegate's live view (`DelegateObject`)
   decides instead whether the call is closed, whether a result is awaited,
   whether the caller blocks and how long it waits. The transport (UDP or
   TCP) always comes from the method's own annotations, so the delegate's
   `udp` setting has no effect on where a call goes.
2. Callback-style arguments are replaced by the ids of the objects they are
   hosted under.
3. An `InvocationEvent` is sent. The caller either returns a default at once
   or waits for the `ExecutionEvent` carrying the result.

The serving side resolves the ids to proxies and runs the hosted object's
method. It encodes a thrown error according to the method's transmission
mode and replies.

Every operation is a pure function over immutable state:

- a blocking wait becomes a read of the result store after some elapsed time;
- the user code of a remote method is a parameter;
- the serializer is a small token codec (module `Codec`) for events, and a
  parameter for TCP frames.

Modules, in dependency order:

- `Wrappers`: `Option` and `Result`.
- `Types`: Java values and classes, and `primitize`.
- `Rmi`: annotations, `RMI.Helper`.
- `Codec`: the token codec.
- `CachedMethods`: the descriptor.
- `Events`: both events and their read/write pairs.
- `ResultStore`: `MultiResultLock`.
- `Registration`: `registerRemotable` and `registerMethods`.
- `ObjectSpace`: object table, proxy cache, argument and result substitution.
- `Dispatch`: both `invokeMethod`s, the result queries, the `received` handlers and whole-call lemmas.
- `DelegateObjects`: `DelegateObject`.
- `TcpFraming`: `TcpConnection`.

Source paths in the table are relative to the repository root.

## Model

| member | source | states |
|---|---|---|
| Types.Primitize | src/main/java/com/esotericsoftware/kryonet/rmi2/ObjectSpaceV2.java:148-160 | A non-null value is kept. Null becomes non-null exactly for a primitive non-void class, and then it becomes that class's zero. The result still conforms to the class. |
| Types.PrimitizeIdempotent | src/main/java/com/esotericsoftware/kryonet/rmi2/ObjectSpaceV2.java:148-160 | Applying `primitize` twice gives the same result as applying it once. |
| Types.Int32Succ | src/main/java/com/esotericsoftware/kryonet/rmi2/ObjectSpaceV2.java:46 | `+1` on an `int` (the transaction counter's `getAndIncrement`, `objectId + 1`, `nextProxyId++`) stays within 32 bits: +1 below the maximum, and the maximum wraps to the minimum. |
| Codec.Encode | src/main/java/com/esotericsoftware/kryonet/rmi2/InvocationEvent.java:67 | Writing with a declared class succeeds exactly when the value is of that class: null always, a number under its primitive class or its box, any other object under a reference class. Otherwise the write fails with a cast error. |
| Codec.RoundTrip | src/main/java/com/esotericsoftware/kryonet/rmi2/InvocationEvent.java:67-79 | Whatever `writeObjectOrNull` manages to write under a declared class reads back unchanged under that class, leaving the rest of the stream. |
| Codec.BoxedNumberRoundTrip | src/main/java/com/esotericsoftware/kryonet/rmi2/InvocationEvent.java:67-79 | A boxed number written under its wrapper class, such as `Integer` holding 5, is written and reads back as the same number. |
| Codec.EncodeAll | src/main/java/com/esotericsoftware/kryonet/rmi2/InvocationEvent.java:66-68 | A run of values is written iff every value is of the class at its index, one token per value. The first misfit fails the write with a cast error. |
| Codec.RoundTripAll | src/main/java/com/esotericsoftware/kryonet/rmi2/InvocationEvent.java:66-79 | A run of values that is written without error reads back unchanged and in order, leaving the rest of the stream. |
| Rmi.GetRmi | src/main/java/com/esotericsoftware/kryonet/rmi2/RMI.java:78-103 | Without `@RMI` or `@Local` a method is not local. `closed`, `remoteToString` and `remoteHashCode` come from `@RMI`, and are all false without it. `@ResponseTimeout` decides the timeout when present. The transmission mode is the one `@TransmitExceptions` names, and errors stay local without it. |
| Rmi.NoAnnotationsGiveDefault | src/main/java/com/esotericsoftware/kryonet/rmi2/RMI.java:78-83 | An unannotated method gets every flag false and a 3000 ms timeout. |
| Rmi.MarkersOnlyRaiseFlags | src/main/java/com/esotericsoftware/kryonet/rmi2/RMI.java:96-99 | Adding marker annotations can switch a flag on but never off. A flag that `@RMI` sets stays set. |
| Rmi.FlagsAreDisjunctions | src/main/java/com/esotericsoftware/kryonet/rmi2/RMI.java:86-99 | Each of the four flags holds exactly when its `@RMI` attribute or its marker annotation says so. |
| Rmi.TimeoutPrecedence | src/main/java/com/esotericsoftware/kryonet/rmi2/RMI.java:83-100 | The timeout comes from `@ResponseTimeout` if present, otherwise from `@RMI.responseTimeout`, otherwise it is 3000. |
| Rmi.FieldsAreIndependent | src/main/java/com/esotericsoftware/kryonet/rmi2/RMI.java:78-103 | `udp`, `nonBlocking` and the timeout each depend only on their own annotations. |
| Rmi.RmiAnnotationPresence | src/main/java/com/esotericsoftware/kryonet/rmi2/RMI.java:105-109 | The presence test holds exactly when `@RMI` or `@Local` is present, and no other annotation changes it. A method that `getRMI` calls local always passes it. |
| Rmi.ClosureNeedsAllThree | src/main/java/com/esotericsoftware/kryonet/rmi2/RMI.java:111-120 | A parameter without `@Local` is callback-style if and only if it is an interface, is functional and has `@Closure`. Dropping any one of the three turns it off. |
| CachedMethods.Build | src/main/java/com/esotericsoftware/kryonet/rmi2/CachedMethod.java:21-65 | The constructor gives argument classes equal to the parameter types. The wire classes are `int` exactly at the callback slots. The callback indices are strictly increasing, in range, and are exactly the slots that are local, closures, or functional in a functional interface. `isResLocal` holds iff the method has `@Closure` or both the declaring class and the return type are functional. |
| CachedMethods.BitNot | src/main/java/com/esotericsoftware/kryonet/rmi2/CachedMethod.java:84 | `~x` flips the sign, stays within 32 bits and always differs from `x`. |
| CachedMethods.BitNotInvolution | src/main/java/com/esotericsoftware/kryonet/rmi2/CachedMethod.java:84-91 | `~~x == x`, so an error-flagged id still names its object. |
| CachedMethods.InvokeMethod | src/main/java/com/esotericsoftware/kryonet/rmi2/CachedMethod.java:77-100 | A normal return is passed on with the id unchanged. On a throw:<br>- LOCAL_ONLY rethrows;<br>- TO_STRING replies with the stack trace under `~id`;<br>- GET_MESSAGE replies with the message under `~id`;<br>- any other mode is unsupported.<br>A reply's id equals the original exactly when nothing was thrown. |
| CachedMethods.TransmitModeDecidesErrorReply | src/main/java/com/esotericsoftware/kryonet/rmi2/CachedMethod.java:77-100 | For a descriptor the constructor built, the method's `@TransmitExceptions` alone decides what a throw becomes: rethrown without it or under LOCAL_ONLY, the stack trace or the message under `~id` for TO_STRING or GET_MESSAGE, unsupported otherwise. |
| Events.ObtainInvocation | src/main/java/com/esotericsoftware/kryonet/rmi2/InvocationEvent.java:28-35 | The event carries the given ids and method. A missing argument array becomes an empty one. |
| Events.ObtainExecution | src/main/java/com/esotericsoftware/kryonet/rmi2/ExecutionEvent.java:26-33 | The result is stored primitized: a non-null result is kept, and a missing primitive result becomes non-null. |
| Events.WriteInvocation | src/main/java/com/esotericsoftware/kryonet/rmi2/InvocationEvent.java:61-69 | Writing succeeds iff there are no more arguments than wire classes and every argument is of its wire class. A misfit argument fails with a cast error. The output is the three ids, the count, then one token per argument. |
| Events.ReadInvocation | src/main/java/com/esotericsoftware/kryonet/rmi2/InvocationEvent.java:72-81 | A successful read took its ids from the stream and its method from the id table. Every argument conforms to its wire class. |
| Events.InvocationRoundTrip | src/main/java/com/esotericsoftware/kryonet/rmi2/InvocationEvent.java:61-81 | For a registered method, `read` inverts every `write` that succeeds. |
| Events.CallbackSlotsArriveAsIds | src/main/java/com/esotericsoftware/kryonet/rmi2/CachedMethod.java:62-64 | Because callback slots are read with class `int`, every callback argument arrives as an int id or as null. |
| Events.WriteExecution | src/main/java/com/esotericsoftware/kryonet/rmi2/ExecutionEvent.java:65-72 | The output is the three ids, then a closure result as an int, or any other result written with the result class. The write succeeds iff the closure result is an int, or the other result is of the result class; otherwise it fails with a cast error. |
| Events.ReadExecutionAsWritten | src/main/java/com/esotericsoftware/kryonet/rmi2/ExecutionEvent.java:75-83 | As the code reads: a closure result is whatever the pooled event last held (null only when the event is fresh). Any other result is primitized. |
| Events.ReadExecution | src/main/java/com/esotericsoftware/kryonet/rmi2/ExecutionEvent.java:75-83 | Corrected reader: the ids and method come from the stream, a closure result keeps the id that was sent, and other results are primitized. |
| Events.ExecutionRoundTrip | src/main/java/com/esotericsoftware/kryonet/rmi2/ExecutionEvent.java:65-83 | The corrected `read` inverts every successful `write`, carrying an error-flagged object id verbatim; only a missing primitive result comes back as its zero. Every sendable result is written and comes back unchanged. |
| Events.PlainResultRoundTripAsWritten | src/main/java/com/esotericsoftware/kryonet/rmi2/ExecutionEvent.java:65-83 | As written, `read` does invert every successful `write` of a result that is not a closure, up to `primitize`, whatever the pooled event held before. |
| Events.ClosureResultIdDropped | src/main/java/com/esotericsoftware/kryonet/rmi2/ExecutionEvent.java:80 | As written, a closure result's id is consumed and lost. The result read back is the pooled event's stale value, so the event matches the one written only when that value happens to be the id, and never for a fresh event. |
| Events.AsWrittenDiffersOnlyInClosureResult | src/main/java/com/esotericsoftware/kryonet/rmi2/ExecutionEvent.java:75-83 | The as-written and corrected readers accept the same streams and read the same event, except that a closure result is the stale pooled value instead of the id that was sent. |
| ResultStore.Write | src/main/java/com/esotericsoftware/kryonet/rmi2/MultiResultLock.java:11-17 | Writing completes a pending entry or creates a completed one. An already completed entry is unchanged. No other entry changes. |
| ResultStore.BeginRead | src/main/java/com/esotericsoftware/kryonet/rmi2/MultiResultLock.java:20-25 | A reader reuses the entry for the id or registers a pending one. |
| ResultStore.Read | src/main/java/com/esotericsoftware/kryonet/rmi2/MultiResultLock.java:19-34 | A completed entry is returned and kept. The reader times out iff there is no completed entry and the bound has elapsed; the entry is then removed and the id is reported. Otherwise it keeps waiting on a pending entry. |
| ResultStore.ReadFixed | src/main/java/com/esotericsoftware/kryonet/rmi2/MultiResultLock.java:27 | The declared overload times out at 3 seconds. |
| ResultStore.WriteThenRead | src/main/java/com/esotericsoftware/kryonet/rmi2/MultiResultLock.java:11-27 | A result written before the wait is returned at once, whatever the bound. |
| ResultStore.ReadThenWriteThenRead | src/main/java/com/esotericsoftware/kryonet/rmi2/MultiResultLock.java:11-27 | A reader that registered first receives a result written later. |
| ResultStore.FirstWriteWins | src/main/java/com/esotericsoftware/kryonet/rmi2/MultiResultLock.java:13-15 | Once an entry is completed, later writes to the same id have no effect. |
| ResultStore.TimeoutThenLateWrite | src/main/java/com/esotericsoftware/kryonet/rmi2/MultiResultLock.java:28-33 | A timed-out wait leaves no trace, so a late result creates a fresh completed entry. |
| Registration.Table | src/main/java/com/esotericsoftware/kryonet/rmi2/ObjectSpaceV2.java:63-64 | `midToCMet` has exactly the registered ids. Each one holds the constructor's descriptor for its method, under that id. |
| Registration.RegisterOne | src/main/java/com/esotericsoftware/kryonet/rmi2/ObjectSpaceV2.java:59-66 | A public, non-static, non-local method gets the next id in both directions of the map. Other methods are skipped. Earlier ids are kept, and every registered method's id maps back to it. |
| Registration.RegisterList | src/main/java/com/esotericsoftware/kryonet/rmi2/ObjectSpaceV2.java:58-68 | The next id grows by the number of eligible methods. Every eligible method gets an id. Earlier bindings and the registry invariant are kept. |
| Registration.RegisterListAssignsInOrder | src/main/java/com/esotericsoftware/kryonet/rmi2/ObjectSpaceV2.java:58-68 | The k-th eligible method in visiting order gets id `nextMethodId + k`. |
| Registration.InheritedMethodGetsTwoIds | src/main/java/com/esotericsoftware/kryonet/rmi2/ObjectSpaceV2.java:58-67 | A method that a sub-interface inherits is listed by both the sub-interface and its super-interface, so it is registered twice. Both ids map to it, and the method maps to the later id. |
| Registration.RegisterRemotable | src/main/java/com/esotericsoftware/kryonet/rmi2/ObjectSpaceV2.java:51-56 | Registering a class twice fails. Otherwise the class is recorded, and every eligible method of it and its super-interfaces gets a new id. |
| Registration.RegisterRemotableAssigns | src/main/java/com/esotericsoftware/kryonet/rmi2/ObjectSpaceV2.java:51-68 | The k-th eligible method of the class, visited depth first, is registered under the next id plus k. |
| ObjectSpace.SaveObject | src/main/java/com/esotericsoftware/kryonet/rmi2/ObjectSpaceV2.java:78-83 | Saving fails iff the id is taken. Otherwise the id and the object are bound both ways, the next implicit id becomes `id + 1` in `int` arithmetic, nothing else changes, and the table invariant is kept. |
| ObjectSpace.HostObject | src/main/java/com/esotericsoftware/kryonet/rmi2/ObjectSpaceV2.java:85-98 | Explicit hosting fails on a null object (the `getClass()` call) or a taken id, and otherwise binds the id and the object both ways and sets the next implicit id to `id + 1` in `int` arithmetic. |
| ObjectSpace.HostNext | src/main/java/com/esotericsoftware/kryonet/rmi2/ObjectSpaceV2.java:91-93 | Implicit hosting uses the next id and advances it in `int` arithmetic. It fails iff the object is null or that id is already taken. Below the largest `int` it keeps every id non-negative. |
| ObjectSpace.ImplicitHostingSucceeds | src/main/java/com/esotericsoftware/kryonet/rmi2/ObjectSpaceV2.java:78-93 | While every id is below the next one, implicit hosting of an object succeeds, and keeps that invariant unless the next id wraps. |
| ObjectSpace.ImplicitIdWraps | src/main/java/com/esotericsoftware/kryonet/rmi2/ObjectSpaceV2.java:80 | Hosting under the largest `int` succeeds and makes the next implicit id the most negative `int`. |
| ObjectSpace.ExplicitLowIdThenImplicitCollides | src/main/java/com/esotericsoftware/kryonet/rmi2/ObjectSpaceV2.java:81 | The next id becomes `id + 1`, not the maximum. Hosting at 5, then 3, then implicitly at 4 makes the next implicit host collide with 5. |
| ObjectSpace.CreateRemote | src/main/java/com/esotericsoftware/kryonet/rmi2/ObjectSpaceV2.java:107-131 | A cached proxy for the (connection, id) pair is returned as is. On a miss a proxy for that connection and id is created and cached. Existing proxies are kept. |
| ObjectSpace.CreateRemoteIdempotent | src/main/java/com/esotericsoftware/kryonet/rmi2/ObjectSpaceV2.java:107-127 | Asking again for the same pair returns the first proxy, whatever class is asked for. |
| ObjectSpace.CreateRemoteNext | src/main/java/com/esotericsoftware/kryonet/rmi2/ObjectSpaceV2.java:133-139 | Uses the next proxy id, advances it in `int` arithmetic, and caches the proxy under the id it used. |
| ObjectSpace.HostOne | src/main/java/com/esotericsoftware/kryonet/rmi2/ObjectSpaceV2.java:199-206 | A callback value travels as -1 for null, or as the id it is hosted under, hosting it now if it is new. Hosting fails only for a new object whose next id is taken. Below the largest `int` ids stay non-negative. |
| ObjectSpace.HostSlots | src/main/java/com/esotericsoftware/kryonet/rmi2/ObjectSpaceV2.java:198-208 | Only callback slots change. The object table only grows and keeps its invariant. Ids stay non-negative when the next id has room for one host per slot. |
| ObjectSpace.HostSlotsHostEverySlot | src/main/java/com/esotericsoftware/kryonet/rmi2/ObjectSpaceV2.java:198-208 | After the loop, every callback slot holds the id its object is bound to in the final table, or -1 for null. |
| ObjectSpace.HostParams | src/main/java/com/esotericsoftware/kryonet/rmi2/ObjectSpaceV2.java:198-208 | `hostParams` changes only the callback arguments of the event, and keeps ids non-negative when the next id has room for one host per callback slot. |
| ObjectSpace.ResolveOne | src/main/java/com/esotericsoftware/kryonet/rmi2/ObjectSpaceV2.java:233-236 | A received id becomes null for -1, or else the cached proxy on this connection for that id. A non-int fails the cast. |
| ObjectSpace.ProxySlots | src/main/java/com/esotericsoftware/kryonet/rmi2/ObjectSpaceV2.java:230-239 | Only callback slots change. When every slot holds an int, the loop succeeds. |
| ObjectSpace.ProxySlotsResolveEverySlot | src/main/java/com/esotericsoftware/kryonet/rmi2/ObjectSpaceV2.java:230-239 | After a successful loop, every callback slot held an int and now holds null or the proxy cached for that id. |
| ObjectSpace.CreateRemoteParams | src/main/java/com/esotericsoftware/kryonet/rmi2/ObjectSpaceV2.java:230-239 | `createRemoteParams` changes only the callback arguments of the event. |
| ObjectSpace.HostResult | src/main/java/com/esotericsoftware/kryonet/rmi2/ObjectSpaceV2.java:241-249 | A non-closure result passes untouched. A closure result becomes the id of its hosted object, or -1. |
| ObjectSpace.CreateRemoteResult | src/main/java/com/esotericsoftware/kryonet/rmi2/ObjectSpaceV2.java:210-217 | A non-closure result passes untouched. A closure result succeeds iff it is an int, and becomes null or the cached proxy. |
| ObjectSpace.CallbackRoundTrip | src/main/java/com/esotericsoftware/kryonet/rmi2/ObjectSpaceV2.java:198-239 | Hosting then resolving, while ids are non-negative and the next id cannot wrap: every callback argument arrives as null exactly when it was null, and otherwise as a proxy for its hosted object. Other arguments are unchanged. |
| ObjectSpace.ClosureResultRoundTrip | src/main/java/com/esotericsoftware/kryonet/rmi2/ObjectSpaceV2.java:210-249 | The same round trip for a closure result, under the same condition on ids. |
| ObjectSpace.HostedUnderMinusOneArrivesAsNull | src/main/java/com/esotericsoftware/kryonet/rmi2/ObjectSpaceV2.java:199-236 | Without that condition the round trip breaks: an object hosted under -1 is sent as the null sentinel and arrives as null. |
| Dispatch.InvokeRemote | src/main/java/com/esotericsoftware/kryonet/rmi2/ObjectSpaceV2.java:143-196 | The calling conventions:<br>- a delegate implementing the method runs it, with no trace;<br>- an unregistered method fails;<br>- a closed policy returns the default without consuming an id;<br>- otherwise one id is consumed and becomes the last id, and the event sent is the invocation after `hostParams`, over UDP iff the method asks for it;<br>- no-return and non-blocking calls return the default, and only non-blocking calls record an `AsyncExecution`;<br>- blocking calls wait under their id and timeout. |
| Dispatch.SentCallbacksAreHosted | src/main/java/com/esotericsoftware/kryonet/rmi2/ObjectSpaceV2.java:181-206 | In a sent call every callback argument travels as the id its object is hosted under in the caller's table afterwards (-1 for null), and every other argument travels as given. |
| Dispatch.ConsecutiveCallsNumberedInOrder | src/main/java/com/esotericsoftware/kryonet/rmi2/ObjectSpaceV2.java:181 | Two calls that reach the wire get consecutive ids, increasing until the counter wraps. |
| Dispatch.TransactionIdWraps | src/main/java/com/esotericsoftware/kryonet/rmi2/ObjectSpaceV2.java:46-181 | After `Integer.MAX_VALUE` the next call gets the most negative id. |
| Dispatch.AwaitResult | src/main/java/com/esotericsoftware/kryonet/rmi2/ObjectSpaceV2.java:195 | The wait and `use()`:<br>- a completed plain result is returned as stored;<br>- a closure result becomes null or the cached proxy;<br>- timeout iff nothing completed and the bound elapsed, and the entry is then dropped;<br>- otherwise the caller keeps waiting on a pending entry. |
| Dispatch.GetResult | src/main/java/com/esotericsoftware/kryonet/rmi2/ObjectSpaceV2.java:281-291 | An unrecorded transaction fails. Otherwise the wait lasts the larger of the requested and recorded timeouts, a completed plain result is returned, and the record is kept. |
| Dispatch.DefaultRequestWaitsRecordedTimeout | src/main/java/com/esotericsoftware/kryonet/rmi2/ObjectSpaceV2.java:281-288 | With the default request of -1, the call's own recorded timeout decides. |
| Dispatch.GetLastResult | src/main/java/com/esotericsoftware/kryonet/rmi2/ObjectSpaceV2.java:273-279 | The last transaction's result: it fails without a record, and returns a completed plain result. |
| Dispatch.Serve | src/main/java/com/esotericsoftware/kryonet/rmi2/ObjectSpaceV2.java:219-228 | Serving an invocation:<br>- callback ids are resolved first;<br>- a missing target fails;<br>- a no-return method sends nothing;<br>- a reply keeps the transaction id and method, travels like the call, and carries the primitized return value under the object id, or `~id` after a throw (what a throw sends is `Dispatch.ServeErrorReply`);<br>- only the proxy cache and object table change. |
| Dispatch.ServeErrorReply | src/main/java/com/esotericsoftware/kryonet/rmi2/ObjectSpaceV2.java:219-226 | When the user code throws, the method's transmission mode decides what happens. An error kept local, or a whole exception, sends nothing and fails the serving task. Otherwise, unless the method returns nothing, the reply is sent under `~objectId`. It carries the stack trace, or the message primitized to the result class. |
| Dispatch.ReceiveInvocation | src/main/java/com/esotericsoftware/kryonet/rmi2/InvocationEvent.java:84-89 | Only invocation events are served; anything else is ignored. |
| Dispatch.ReceiveExecution | src/main/java/com/esotericsoftware/kryonet/rmi2/ExecutionEvent.java:86-91 | Only execution events are stored, under their transaction id. Afterwards the id has a result, and an earlier result is never overwritten. |
| Dispatch.ArrivalThenAwait | src/main/java/com/esotericsoftware/kryonet/rmi2/ExecutionEvent.java:86-91 | A plain result that arrives before or during the wait is what the waiting call returns. |
| Dispatch.TimeoutThenLateArrival | src/main/java/com/esotericsoftware/kryonet/rmi2/MultiResultLock.java:11-33 | After a timeout the transaction is forgotten, and a late answer is stored as a fresh completed entry. |
| Dispatch.LookupInTable | src/main/java/com/esotericsoftware/kryonet/rmi2/ObjectSpaceV2.java:177-178 | The descriptor found through `metToMid` is the one the id table holds under its id. |
| Dispatch.PlainCallSends | src/main/java/com/esotericsoftware/kryonet/rmi2/ObjectSpaceV2.java:181-195 | A blocking call without callbacks sends exactly the event `obtainIE` builds, then waits under its id. |
| Dispatch.PlainCallServed | src/main/java/com/esotericsoftware/kryonet/rmi2/ObjectSpaceV2.java:219-228 | The server runs the target on the arguments as sent and replies with `obtainEE` of the return value. |
| Dispatch.PlainCallReachesServer | src/main/java/com/esotericsoftware/kryonet/rmi2/InvocationEvent.java:61-89 | The invocation crosses the wire intact and is served. |
| Dispatch.PlainReplyReachesCaller | src/main/java/com/esotericsoftware/kryonet/rmi2/ExecutionEvent.java:65-91 | The reply crosses the wire intact, and once it is received the waiting caller returns the result. |
| Dispatch.PlainCallReturnsResult | src/main/java/com/esotericsoftware/kryonet/rmi2/ObjectSpaceV2.java:174-228 | A whole blocking call returns the remote method's value, primitized to the declared return type. |
| DelegateObjects.GetRmi | src/main/java/com/esotericsoftware/kryonet/rmi2/DelegateObject.java:49-100 | The live view reports the delegate's fields. It transmits errors iff `transmitExceptions` is set. |
| DelegateObjects.FreshDelegateReportsDefaults | src/main/java/com/esotericsoftware/kryonet/rmi2/DelegateObject.java:32-40 | A new delegate reports the method defaults, except that errors are transmitted. |
| DelegateObjects.SetResponseTimeout | src/main/java/com/esotericsoftware/kryonet/rmi2/DelegateObject.java:104-107 | The view reports the new timeout and nothing else changes. |
| DelegateObjects.SetNonBlocking | src/main/java/com/esotericsoftware/kryonet/rmi2/DelegateObject.java:109-112 | The view reports the new `nonBlocking` and nothing else changes. |
| DelegateObjects.SetTransmitReturnValue | src/main/java/com/esotericsoftware/kryonet/rmi2/DelegateObject.java:114-117 | The view reports `noReturns == !transmit` and nothing else changes. |
| DelegateObjects.SetTransmitExceptions | src/main/java/com/esotericsoftware/kryonet/rmi2/DelegateObject.java:119-122 | The view reports the new transmission and nothing else changes. |
| DelegateObjects.SetUdp | src/main/java/com/esotericsoftware/kryonet/rmi2/DelegateObject.java:124-127 | The view reports the new `udp` and nothing else changes. |
| DelegateObjects.SetRemoteToString | src/main/java/com/esotericsoftware/kryonet/rmi2/DelegateObject.java:129-132 | The view reports the new flag and nothing else changes. |
| DelegateObjects.SetRemoteHashCode | src/main/java/com/esotericsoftware/kryonet/rmi2/DelegateObject.java:134-137 | The view reports the new flag and nothing else changes. |
| DelegateObjects.Close | src/main/java/com/esotericsoftware/kryonet/rmi2/DelegateObject.java:164-167 | The view reports `closed` and nothing else changes. |
| DelegateObjects.Open | src/main/java/com/esotericsoftware/kryonet/rmi2/DelegateObject.java:169-172 | The view no longer reports `closed` and nothing else changes. |
| DelegateObjects.CloseOpenIdempotent | src/main/java/com/esotericsoftware/kryonet/rmi2/DelegateObject.java:164-172 | `close` and `open` are each idempotent, and each undoes the other. |
| DelegateObjects.ClosedDelegateSendsNothing | src/main/java/com/esotericsoftware/kryonet/rmi2/ObjectSpaceV2.java:179-180 | Through a closed delegate a remote method answers its default with no id consumed and nothing sent. |
| DelegateObjects.DelegateImplementsMethod | src/main/java/com/esotericsoftware/kryonet/rmi2/ObjectSpaceV2.java:162-176 | A method the delegate implements runs on the delegate, whatever its settings. |
| DelegateObjects.WaitForLastResponse | src/main/java/com/esotericsoftware/kryonet/rmi2/DelegateObject.java:139-141 | Without a record for the last transaction, the wait fails. |
| DelegateObjects.NonBlockingThenWaitForLastResponse | src/test/java/com/esotericsoftware/kryonet/rmi2/RmiTest.java:579-582 | After `setNonBlocking(true)` a call answers the default at once. Once its reply arrives, `waitForLastResponse()` returns the remote result. |
| DelegateObjects.ToSignedByte | src/main/java/com/esotericsoftware/kryonet/rmi2/DelegateObject.java:150 | The `(byte)` cast keeps the value modulo 256 and is the identity on byte values. |
| DelegateObjects.LastResponseIdAsWritten | src/main/java/com/esotericsoftware/kryonet/rmi2/DelegateObject.java:149-151 | The response id is the last transaction id modulo 256, read as signed. |
| DelegateObjects.WaitForResponseAsWritten | src/main/java/com/esotericsoftware/kryonet/rmi2/DelegateObject.java:154-156 | The byte is widened back to a transaction id; an id with no record fails. |
| DelegateObjects.ResponseIdRoundTripBelow128 | src/main/java/com/esotericsoftware/kryonet/rmi2/DelegateObject.java:139-161 | While ids fit in a byte, the response id collects exactly the last response. |
| DelegateObjects.ResponseIdLostPast127 | src/main/java/com/esotericsoftware/kryonet/rmi2/DelegateObject.java:149-156 | At transaction 200 the response id is -56 and collects nothing, while `waitForLastResponse` finds the call. |
| DelegateObjects.LastResponseId | src/main/java/com/esotericsoftware/kryonet/rmi2/DelegateObject.java:149-151 | Corrected: the full transaction id, which agrees with the byte version wherever that one is exact. |
| DelegateObjects.WaitForResponse | src/main/java/com/esotericsoftware/kryonet/rmi2/DelegateObject.java:154-156 | Corrected: takes a full id and agrees with the byte version on byte-sized ids. |
| DelegateObjects.ResponseIdRoundTrip | src/main/java/com/esotericsoftware/kryonet/rmi2/DelegateObject.java:139-161 | With full ids, the response id always collects exactly the last response. |
| TcpFraming.EncodeLength | src/main/java/com/esotericsoftware/kryonet/TcpConnection.java:253-255 | A length prefix is four bytes. |
| TcpFraming.DecodeLength | src/main/java/com/esotericsoftware/kryonet/TcpConnection.java:148 | Four bytes read as a signed 32-bit length, negative iff the top bit is set. |
| TcpFraming.LengthRoundTrip | src/main/java/com/esotericsoftware/kryonet/TcpConnection.java:148-255 | Every 32-bit length survives being written and read. |
| TcpFraming.LengthRoundTripBytes | src/main/java/com/esotericsoftware/kryonet/TcpConnection.java:148-255 | Any four bytes read as a length and written again are the same four bytes. |
| TcpFraming.NewReader | src/main/java/com/esotericsoftware/kryonet/TcpConnection.java:45-47 | A new reader has an empty buffer, no pending length, and satisfies the reader invariant. |
| TcpFraming.Fill | src/main/java/com/esotericsoftware/kryonet/TcpConnection.java:137-143 | A read reports end of stream iff the peer closed and nothing is waiting. Otherwise it moves bytes without loss or reordering, fills the buffer as far as room allows, and restarts the read clock. |
| TcpFraming.TakeLength | src/main/java/com/esotericsoftware/kryonet/TcpConnection.java:148-156 | The first four buffered bytes become the pending length, which is recorded even when it is rejected. |
| TcpFraming.ReadLength | src/main/java/com/esotericsoftware/kryonet/TcpConnection.java:134-157 | A pending length is not read again. The result is null only while fewer than four bytes have arrived. Otherwise the first four bytes are the length, rejected if zero or less or if larger than the buffer. |
| TcpFraming.ReadBody | src/main/java/com/esotericsoftware/kryonet/TcpConnection.java:159-190 | The result is null only while the frame is incomplete, and the connection is closed if the peer has gone. A complete frame is exactly the next `length` bytes. It must deserialize using all of them; then the bytes behind it are kept in order. A short read fails with the remaining count and reading resumes inside the frame. A failed read drops the bytes behind the frame that were already buffered. |
| TcpFraming.Deliver | src/main/java/com/esotericsoftware/kryonet/TcpConnection.java:172-190 | Once the frame is buffered: the outcome of the serializer's read, and the point where the next read starts (after the frame, where the serializer stopped, or inside the frame with the buffered bytes behind it dropped). |
| TcpFraming.ShortReadResumesInsideFrame | src/main/java/com/esotericsoftware/kryonet/TcpConnection.java:184-188 | A serializer that uses one byte of a three-byte frame fails the read, and the next read starts at the frame's second byte. |
| TcpFraming.FailedReadDropsBytesBehindFrame | src/main/java/com/esotericsoftware/kryonet/TcpConnection.java:176-182 | A serializer that throws after one byte of a three-byte frame leaves the rest of the frame unread and drops the bytes behind it. |
| TcpFraming.ReadObject | src/main/java/com/esotericsoftware/kryonet/TcpConnection.java:129-191 | Reading on a closed connection fails. Otherwise the length phase runs, then the body phase. An incomplete frame loses no bytes, and a pending length is never read again. |
| TcpFraming.Send | src/main/java/com/esotericsoftware/kryonet/TcpConnection.java:233-285 | A closed connection fails. Otherwise the length prefix and payload are queued behind earlier bytes, the write clock restarts, and the frame size is returned. A frame that does not fit fails and leaves the queue unchanged. |
| TcpFraming.WriteToSocket | src/main/java/com/esotericsoftware/kryonet/TcpConnection.java:203-221 | The socket takes a prefix of the queue in order. The result is true iff the queue is now empty. |
| TcpFraming.ReadWholeFrame | src/main/java/com/esotericsoftware/kryonet/TcpConnection.java:129-191 | A whole frame at the front of the stream reads as its object, and the bytes behind it are left in order. |
| TcpFraming.SendThenRead | src/main/java/com/esotericsoftware/kryonet/TcpConnection.java:129-285 | A frame that is sent and fully flushed is read back by the peer as the object it carries. |
| TcpFraming.ResumeSkipsLength | src/main/java/com/esotericsoftware/kryonet/TcpConnection.java:134-172 | After a null read with a length pending, the next read goes straight to the body. |
| TcpFraming.PartialFrameWaits | src/main/java/com/esotericsoftware/kryonet/TcpConnection.java:134-170 | A length prefix followed by only part of its body gives null. The length stays pending and the partial body is kept in order. |
| TcpFraming.SplitFrame | src/main/java/com/esotericsoftware/kryonet/TcpConnection.java:134-190 | A body that arrives in two pieces first gives null with the length pending, then gives the object. |
| TcpFraming.TimingPredicatesMonotone | src/main/java/com/esotericsoftware/kryonet/TcpConnection.java:301-309 | Once a keep-alive or a timeout is due, it stays due as time passes. |
| TcpFraming.SendRestartsKeepAlive | src/main/java/com/esotericsoftware/kryonet/TcpConnection.java:282-304 | After a send, a keep-alive is due exactly once more than `keepAliveMillis` has passed. |
| TcpFraming.ReadRestartsTimeout | src/main/java/com/esotericsoftware/kryonet/TcpConnection.java:143-309 | After a read, the connection times out exactly once more than `timeoutMillis` has passed. |
| TcpFraming.DefaultTiming | src/main/java/com/esotericsoftware/kryonet/TcpConnection.java:44-47 | By default a keep-alive is due after 8 s and a timeout after 12 s. |

## Left out

- Reflection, Kryo's byte layout, object pools (`obtain`/`close`), the executor thread, listeners and logging are not modelled. Events are immutable values. The pools hand back used objects without clearing them, and this shows through in three places. Only the first is modelled: the stale result in `Events.ReadExecutionAsWritten`. The other two are listed under `Dispatch.GetResult` and `Dispatch.AwaitResult` below. The serializer is a token codec whose encoding of values is not byte-exact.
- Socket and selector I/O are not modelled: `connect`, `accept`, `close`, interest-set changes, buffer compaction and the utilisation logging in `send`. A socket is a queue of bytes, and clocks are parameters (`now`, `elapsed`).
- The `Serialization` implementation is not part of this model. TCP frames use a 4-byte big-endian signed length, as the default serialization writes it, and the deserializer is a parameter.
- `RMI.java` declares only five attributes and no `@TransmitExceptions`, but the rest of the code reads `closed`, `remoteToString`, `remoteHashCode` and the transmission mode. The model uses one policy record that has all of them. `RMI.Helper.isLocal(Method)` is not in the file; it is modelled as the policy's `local` flag. `@NonBlocking`, `@NoReturns` and `@ResponseTimeout` are declared for types only, so in the source the method-level checks in `getRMI` never find them. The model still lets a method carry them, and a method as the source allows it has all three absent.
- `MultiResultLock` in the file has only `read(id)`, with a fixed 3-second bound. The invocation space calls `read(id, timeout)`, `containsKey` and `containsValue`, which are missing. `ResultStore.Read` takes the bound as a parameter, and `HasResult` means "the entry is completed".
- `DelegateObject.transmitExceptions` is a boolean where the rest of the code uses a transmission mode. The view maps true to sending the error itself and false to keeping it local. The serving side uses the method's own policy, not the delegate's.
- `createRemoteParams` follows the code: a received id always becomes a proxy, never the local object it may name.
- Dispatch.Serve: a target id missing from the object table is reported as a failure. In the source the method would be invoked on `null`.
- Dispatch.GetResult: the `AsyncExecution` record is kept unchanged after a collection. In the source `ae.close()` returns it to the pool while `asyncExecutions` still maps it, so a later non-blocking call's `obtainAE` can overwrite its connection and timeout.
- Dispatch.AwaitResult: a collected result stays in the store unchanged. In the source `use()` returns the event to the pool while the result lock still holds it, so the next reply's `read` can overwrite its id and result. Collecting a transaction twice can therefore return a later call's result, where the model returns the first one again.
- Dispatch.InvokeRemote: an unregistered method is reported as a failure where the source dereferences a null descriptor. With an open delegate the source has already taken a transaction id, and so does the model.
- TcpFraming.Send: a serialization failure leaves the write queue unchanged. In the source the write buffer's position is left wherever the serializer stopped.
- TcpFraming.ReadBody: a negative pending length, left behind by a rejected length, is reported as an invalid length. In the source it surfaces as a buffer-limit error.
- The user code of a remote method is a parameter (`run`), and so is the choice of delegate class (`Supplier.assignableTo`).
- Events.ReadExecutionAsWritten: which event the pool hands back is not modelled. The result that event last held is a parameter, and is null for a fresh event.
- Events.ReadInvocation: an unknown method id is rejected when the event is read. In the source `read` then succeeds with a null method whenever the argument count is 0, and the failure comes only when the event is served. Either way nothing is sent back and no state changes.
- Registration.RegisterOne: the method id counter is an unbounded integer, so the wrap of `nextMethodId++` past the largest `int` is not modelled; it would take more than two billion registered methods.
- Registration.RegisterList: the same unbounded method id counter, for a whole list of methods.
- A number conforms only to its primitive class and its box. Strings, hosted objects and proxies conform to every reference class, because class hierarchies are not modelled.
- Only the TCP path of `send` is framed. UDP is recorded as the chosen transport but not modelled further.

## Findings

| source | as written | input that shows it | evidently intended | confidence | as-written member | corrected member |
|---|---|---|---|---|---|---|
| src/main/java/com/esotericsoftware/kryonet/rmi2/ExecutionEvent.java:80 | For a closure result, `read` consumes the object id with `readVarInt` and never stores it, so `ee.result` keeps whatever the pooled event last held (null only when the event is fresh). `createRemoteResult`'s `(int) ee.result` then fails on null, or resolves a stale id, and the returned closure is lost. | A closure-returning method whose result was hosted under id 0, read into a fresh event: `write` emits id 0 and `read` yields a null result. | `ee.result = input.readVarInt(true)`, so `read` inverts `write`. | high, not executed | Events.ReadExecutionAsWritten, Events.ClosureResultIdDropped | Events.ReadExecution, Events.ExecutionRoundTrip |
| src/main/java/com/esotericsoftware/kryonet/rmi2/DelegateObject.java:149-156 | `getLastResponseID` casts the `int` transaction id to `byte`, and `waitForResponse(byte)` widens it back. From transaction 128 on, the id names another transaction or none. | Last transaction 200, a non-blocking call: the response id is -56 and `waitForResponse(-56)` finds no record. | Response ids carry the full `int` transaction id. | high, not executed | DelegateObjects.LastResponseIdAsWritten, DelegateObjects.ResponseIdLostPast127 | DelegateObjects.LastResponseId, DelegateObjects.ResponseIdRoundTrip |

=== FILE: cached_method.dfy ===
/**
 * The method descriptor (`CachedMethod`): what the constructor derives
 * from a method's shape, and how an error raised while executing the
 * method is turned into a reply.
 */
module CachedMethods {
  import opened Wrappers
  import opened Types
  import opened Rmi

  /** A reflected method: `Method` plus the facts the constructor asks of it. */
  datatype MethodSig = MethodSig(
    name: string,
    declaring: string,             // getDeclaringClass()
    declaringFunctional: bool,     // declaring class marked @FunctionalInterface
    params: seq<Param>,
    ret: JType,                    // getReturnType()
    annotations: MethodAnnotations,
    isPublic: bool,
    isStatic: bool)

  /** The cached descriptor of a registered method. */
  datatype CachedMethod = CachedMethod(
    id: int,
    sig: MethodSig,
    rmi: Policy,
    argClasses: seq<JType>,
    serClasses: seq<JType>,
    resClass: JType,
    isResLocal: bool,
    localParamIndices: seq<int>)

  /** Parameter `i` of `m` travels as an object id: it is a local/closure
      parameter, or the declaring type is functional and so is its type. */
  predicate IsCallbackSlot(m: MethodSig, i: int)
    requires 0 <= i < |m.params|
  {
    IsLocalParam(m.params[i]) || (m.declaringFunctional && IsFunctional(m.params[i].ty))
  }

  predicate StrictlyIncreasing(s: seq<int>) {
    forall i, j :: 0 <= i < j < |s| ==> s[i] < s[j]
  }

  /** The constructor's selection test, with its two loop variants. */
  predicate Selected(m: MethodSig, p: Param) {
    if m.declaringFunctional then IsLocalParam(p) || IsFunctional(p.ty)
    else IsLocalParam(p)
  }

  /** The indices `from..` of the selected parameters, in increasing order. */
  function LocalIndicesFrom(m: MethodSig, from: nat): (r: seq<int>)
    requires from <= |m.params|
    ensures StrictlyIncreasing(r)
    ensures forall k :: 0 <= k < |r| ==> from <= r[k] < |m.params|
    ensures forall i :: from <= i < |m.params| ==> (i in r <==> IsCallbackSlot(m, i))
    decreases |m.params| - from
  {
    if from == |m.params| then []
    else
      var rest := LocalIndicesFrom(m, from + 1);
      if Selected(m, m.params[from]) then [from] + rest else rest
  }

  /** The declared class of every parameter (`getParameterTypes()`). */
  function ParamTypes(ps: seq<Param>): (r: seq<JType>)
    ensures |r| == |ps|
    ensures forall i :: 0 <= i < |ps| ==> r[i] == ps[i].ty
  {
    seq(|ps|, i requires 0 <= i < |ps| => ps[i].ty)
  }

  /** The wire classes: every callback slot is declared as `int`, since an
      object id travels there in place of the object. */
  function WireTypes(types: seq<JType>, idxs: seq<int>): (r: seq<JType>)
    requires forall k :: 0 <= k < |idxs| ==> 0 <= idxs[k] < |types|
    ensures |r| == |types|
    ensures forall i :: 0 <= i < |types| ==> r[i] == (if i in idxs then IntType else types[i])
    decreases |idxs|
  {
    if idxs == [] then types
    else WireTypes(types[idxs[0] := IntType], idxs[1..])
  }

  /** The `CachedMethod` constructor. */
  function Build(id: int, m: MethodSig): (c: CachedMethod)
    ensures c.id == id && c.sig == m && c.resClass == m.ret
    ensures c.rmi == GetRmi(m.annotations)
    ensures |c.argClasses| == |m.params| == |c.serClasses|
    ensures forall i :: 0 <= i < |m.params| ==> c.argClasses[i] == m.params[i].ty
    ensures forall i :: 0 <= i < |m.params| ==>
              c.serClasses[i] == (if IsCallbackSlot(m, i) then IntType else c.argClasses[i])
    ensures StrictlyIncreasing(c.localParamIndices)
    ensures forall k :: 0 <= k < |c.localParamIndices| ==> 0 <= c.localParamIndices[k] < |m.params|
    ensures forall i :: 0 <= i < |m.params| ==> (i in c.localParamIndices <==> IsCallbackSlot(m, i))
    ensures c.isResLocal <==> m.annotations.closure || (m.declaringFunctional && IsFunctional(m.ret))
  {
    var argClasses := ParamTypes(m.params);
    var indices := LocalIndicesFrom(m, 0);
    CachedMethod(
      id, m, GetRmi(m.annotations),
      argClasses, WireTypes(argClasses, indices), m.ret,
      m.annotations.closure || (m.declaringFunctional && IsFunctional(m.ret)),
      indices)
  }

  /** The registry's id table (`midToCMet`). */
  type MethodTable = map<int, CachedMethod>

  /** A descriptor produced by the constructor. */
  predicate WellFormed(c: CachedMethod) {
    c == Build(c.id, c.sig)
  }

  /** Java's `~x` on an `int`. */
  function BitNot(x: int): (r: int)
    ensures x >= 0 <==> r < 0
    ensures IsInt32(x) ==> IsInt32(r)
    ensures r != x
  {
    -x - 1
  }

  /** `~` undoes itself, so an error-flagged id still names its object. */
  lemma BitNotInvolution(x: int)
    ensures BitNot(BitNot(x)) == x
  {
  }

  /** What the reflected call did: returned a value or threw (trace, message). */
  datatype Execution =
    | Returned(value: Value)
    | Threw(stackTrace: string, message: Value)

  /** What `invokeMethod` hands back to the dispatcher. */
  datatype Invoked =
    | Completed(objectId: int, result: Value)   // possibly error-flagged id and text
    | Rethrown                                  // LOCAL_ONLY: error stays on this side
    | Unsupported                               // any other mode

  /** `CachedMethod.invokeMethod`, for the objectId of the incoming event. */
  function InvokeMethod(c: CachedMethod, objectId: int, ex: Execution): (r: Invoked)
    ensures ex.Returned? ==> r == Completed(objectId, ex.value)
    ensures ex.Threw? ==> (r.Rethrown? <==> c.rmi.transmission == LocalOnly)
    ensures ex.Threw? ==> (r.Unsupported? <==> c.rmi.transmission == Whole)
    ensures r.Completed? ==> (r.objectId == objectId <==> ex.Returned?)
    ensures ex.Threw? && r.Completed? ==> BitNot(r.objectId) == objectId
    ensures ex.Threw? && r.Completed? && objectId >= 0 ==> r.objectId < 0
    ensures ex.Threw? && c.rmi.transmission == ToString ==> r.Completed? && r.result == Text(ex.stackTrace)
    ensures ex.Threw? && c.rmi.transmission == GetMessage ==> r.Completed? && r.result == ex.message
  {
    match ex
    case Returned(v) => Completed(objectId, v)
    case Threw(trace, message) =>
      match c.rmi.transmission
      case LocalOnly => Rethrown
      case ToString => Completed(BitNot(objectId), Text(trace))
      case GetMessage => Completed(BitNot(objectId), message)
      case Whole => Unsupported
  }

  /** A method's `@TransmitExceptions` mode alone decides what a throw
      becomes: rethrown here without one, the stack trace or the message
      under the error-flagged id, or unsupported for whole exceptions. */
  lemma TransmitModeDecidesErrorReply(id: int, m: MethodSig, objectId: int, trace: string, message: Value)
    ensures var r := InvokeMethod(Build(id, m), objectId, Threw(trace, message));
            && (m.annotations.transmit.None? ==> r == Rethrown)
            && (m.annotations.transmit == Some(LocalOnly) ==> r == Rethrown)
            && (m.annotations.transmit == Some(ToString) ==> r == Completed(BitNot(objectId), Text(trace)))
            && (m.annotations.transmit == Some(GetMessage) ==> r == Completed(BitNot(objectId), message))
            && (m.annotations.transmit == Some(Whole) ==> r == Unsupported)
  {
  }
}

=== FILE: codec.dfy ===
/**
 * The serializer the messages are written with, as an abstract token
 * codec: one token per varint, one token per object written with
 * `writeObjectOrNull`. The byte layout is not modelled; what matters is
 * that decoding with the declared class returns what was written.
 */
module Codec {
  import opened Wrappers
  import opened Types

  datatype Token =
    | VarInt(n: int)
    | NullMark
    | PrimTok(kind: PrimKind, bits: int)
    | TextTok(s: string)
    | LocalTok(handle: nat)
    | ProxyTok(conn: ConnId, objectId: int, cls: JType)

  /**
   * `writeObjectOrNull(output, v, t)`: the serializer of class `t` writes
   * `v`, and throws when `v` is not an instance it can handle.
   */
  function Encode(v: Value, t: JType): (r: Result<seq<Token>, Error>)
    ensures r.Success? <==> Conforms(v, t)
    ensures r.Success? ==> |r.value| == 1
    ensures r.Failure? ==> r.error == BadCast
  {
    if !Conforms(v, t) then Failure(BadCast)
    else match v
      case Null => Success([NullMark])
      case Prim(k, b) => Success([PrimTok(k, b)])
      case Text(s) => Success([TextTok(s)])
      case Local(h) => Success([LocalTok(h)])
      case Proxy(c, o, k) => Success([ProxyTok(c, o, k)])
  }

  /** `readObjectOrNull(input, t)`: the declared class decides how a token reads back. */
  function Decode(ts: seq<Token>, t: JType): (r: Option<(Value, seq<Token>)>)
    ensures r.Some? ==> |ts| > 0 && Conforms(r.value.0, t) && r.value.1 == ts[1..]
  {
    if ts == [] then None
    else match ts[0]
      case NullMark => Some((Null, ts[1..]))
      case PrimTok(k, b) =>
        if Conforms(Prim(k, b), t) then Some((Prim(k, b), ts[1..])) else None
      case TextTok(s) => if t.Reference? then Some((Text(s), ts[1..])) else None
      case LocalTok(h) => if t.Reference? then Some((Local(h), ts[1..])) else None
      case ProxyTok(c, o, k) => if t.Reference? then Some((Proxy(c, o, k), ts[1..])) else None
      case VarInt(_) => None
  }

  /**
   * Writing succeeds exactly for a value of class `t` (a number under its
   * primitive class or its box included), and what was written reads back
   * with the same class, leaving the rest of the stream.
   */
  lemma RoundTrip(v: Value, t: JType, rest: seq<Token>)
    ensures Encode(v, t).Success? ==> Decode(Encode(v, t).value + rest, t) == Some((v, rest))
  {
    if Encode(v, t).Success? {
      assert (Encode(v, t).value + rest)[1..] == rest;
    }
  }

  /** A boxed number written with its wrapper class reads back as the same number. */
  lemma BoxedNumberRoundTrip(k: PrimKind, b: int, rest: seq<Token>)
    requires k != Void
    ensures Encode(Prim(k, b), Reference(BoxName(k), false, false)).Success?
    ensures Decode(Encode(Prim(k, b), Reference(BoxName(k), false, false)).value + rest,
                   Reference(BoxName(k), false, false)) == Some((Prim(k, b), rest))
  {
    RoundTrip(Prim(k, b), Reference(BoxName(k), false, false), rest);
  }

  /** `readVarInt(true)`. */
  function ReadVarInt(ts: seq<Token>): (r: Option<(int, seq<Token>)>)
    ensures r.Some? <==> |ts| > 0 && ts[0].VarInt?
    ensures r.Some? ==> r.value == (ts[0].n, ts[1..])
  {
    if ts != [] && ts[0].VarInt? then Some((ts[0].n, ts[1..])) else None
  }

  /** The values `vs`, each written with the class at its index; the first misfit aborts. */
  function EncodeAll(vs: seq<Value>, types: seq<JType>): (r: Result<seq<Token>, Error>)
    requires |vs| <= |types|
    ensures r.Success? <==> AllConform(vs, types)
    ensures r.Success? ==> |r.value| == |vs|
    ensures r.Failure? ==> r.error == BadCast
  {
    if vs == [] then Success([])
    else
      var head :- Encode(vs[0], types[0]);
      var tail :- EncodeAll(vs[1..], types[1..]);
      assert AllConform(vs, types) by { AllConformCons(vs, types); }
      Success(head + tail)
  }

  /** One value per class in `types`, read in order. */
  function DecodeAll(ts: seq<Token>, types: seq<JType>): (r: Option<(seq<Value>, seq<Token>)>)
    ensures r.Some? ==> |r.value.0| == |types|
    ensures r.Some? ==> forall i :: 0 <= i < |types| ==> Conforms(r.value.0[i], types[i])
    decreases |types|
  {
    if types == [] then Some(([], ts))
    else match Decode(ts, types[0])
      case None => None
      case Some((v, rest)) =>
        match DecodeAll(rest, types[1..])
        case None => None
        case Some((vs, rest')) => Some(([v] + vs, rest'))
  }

  /** Every value conforms to the class it is written with. */
  ghost predicate AllConform(vs: seq<Value>, types: seq<JType>)
    requires |vs| <= |types|
  {
    forall i :: 0 <= i < |vs| ==> Conforms(vs[i], types[i])
  }

  /** A non-empty run conforms exactly when its head and its tail do. */
  lemma AllConformCons(vs: seq<Value>, types: seq<JType>)
    requires 0 < |vs| <= |types|
    ensures AllConform(vs, types) <==> Conforms(vs[0], types[0]) && AllConform(vs[1..], types[1..])
  {
    if Conforms(vs[0], types[0]) && AllConform(vs[1..], types[1..]) {
      forall i | 0 <= i < |vs| ensures Conforms(vs[i], types[i]) {
        if i > 0 {
          assert vs[1..][i - 1] == vs[i];
        }
      }
    }
  }

  /** A run of values that writes without error reads back unchanged, leaving the rest of the stream. */
  lemma {:induction false} RoundTripAll(vs: seq<Value>, types: seq<JType>, rest: seq<Token>)
    requires |vs| == |types|
    ensures EncodeAll(vs, types).Success? ==> DecodeAll(EncodeAll(vs, types).value + rest, types) == Some((vs, rest))
    decreases |vs|
  {
    var e := EncodeAll(vs, types);
    if e.Success? {
      if vs != [] {
        var head := Encode(vs[0], types[0]).value;
        var tail := EncodeAll(vs[1..], types[1..]).value + rest;
        assert e.value + rest == head + tail;
        RoundTrip(vs[0], types[0], tail);
        RoundTripAll(vs[1..], types[1..], rest);
        assert Decode(e.value + rest, types[0]) == Some((vs[0], tail));
        assert [vs[0]] + vs[1..] == vs;
      } else {
        assert e.value + rest == rest;
      }
    }
  }
}

=== FILE: delegate_object.dfy ===
/**
 * The delegate policy object (`DelegateObject`): a small record of
 * calling-convention settings that a proxy created with a delegate consults
 * on every call through its live `getRMI()` view, plus the response
 * queries it forwards to the invocation space.
 */
module DelegateObjects {
  import opened Wrappers
  import opened Types
  import opened Rmi
  import opened CachedMethods
  import opened Events
  import opened Registration
  import opened ObjectSpace
  import opened Dispatch
  import opened ResultStore

  /** The delegate's fields. */
  datatype DelegateObject = DelegateObject(
    local: bool,
    udp: bool,
    nonBlocking: bool,
    returnsNotRequired: bool,
    responseTimeout: int,
    transmitExceptions: bool,
    remoteToString: bool,
    remoteHashCode: bool,
    closed: bool)

  /** A freshly constructed delegate. */
  const FreshDelegate: DelegateObject :=
    DelegateObject(false, false, false, false, 3000, true, false, false, false)

  /**
   * `getRMI()`: the anonymous `RMI` whose accessors read the fields at call
   * time. The delegate's `transmitExceptions` is a yes/no flag; "yes" is
   * read as sending the error itself.
   */
  function GetRmi(d: DelegateObject): (p: Policy)
    ensures p.transmission == LocalOnly || p.transmission == Whole
    ensures p.transmission == Whole <==> d.transmitExceptions
  {
    Policy(d.local, d.udp, d.nonBlocking, d.returnsNotRequired, d.responseTimeout,
           if d.transmitExceptions then Whole else LocalOnly,
           d.remoteToString, d.remoteHashCode, d.closed)
  }

  /** A fresh delegate reports the method defaults, except that errors are transmitted. */
  lemma FreshDelegateReportsDefaults()
    ensures GetRmi(FreshDelegate) == DefaultPolicy.(transmission := Whole)
    ensures GetRmi(FreshDelegate).responseTimeout == DefaultResponseTimeout
  {
  }

  function SetResponseTimeout(d: DelegateObject, t: int): (r: DelegateObject)
    ensures GetRmi(r) == GetRmi(d).(responseTimeout := t)
  {
    d.(responseTimeout := t)
  }

  function SetNonBlocking(d: DelegateObject, v: bool): (r: DelegateObject)
    ensures GetRmi(r) == GetRmi(d).(nonBlocking := v)
  {
    d.(nonBlocking := v)
  }

  /** `setTransmitReturnValue(t)`: the view then reports `noReturns() == !t`. */
  function SetTransmitReturnValue(d: DelegateObject, transmit: bool): (r: DelegateObject)
    ensures GetRmi(r) == GetRmi(d).(noReturns := !transmit)
  {
    d.(returnsNotRequired := !transmit)
  }

  function SetTransmitExceptions(d: DelegateObject, transmit: bool): (r: DelegateObject)
    ensures GetRmi(r) == GetRmi(d).(transmission := if transmit then Whole else LocalOnly)
  {
    d.(transmitExceptions := transmit)
  }

  function SetUdp(d: DelegateObject, v: bool): (r: DelegateObject)
    ensures GetRmi(r) == GetRmi(d).(udp := v)
  {
    d.(udp := v)
  }

  function SetRemoteToString(d: DelegateObject, v: bool): (r: DelegateObject)
    ensures GetRmi(r) == GetRmi(d).(remoteToString := v)
  {
    d.(remoteToString := v)
  }

  function SetRemoteHashCode(d: DelegateObject, v: bool): (r: DelegateObject)
    ensures GetRmi(r) == GetRmi(d).(remoteHashCode := v)
  {
    d.(remoteHashCode := v)
  }

  /** `close()`: the view reports `closed()`, nothing else changes. */
  function Close(d: DelegateObject): (r: DelegateObject)
    ensures GetRmi(r) == GetRmi(d).(closed := true)
  {
    d.(closed := true)
  }

  /** `open()`: the view no longer reports `closed()`, nothing else changes. */
  function Open(d: DelegateObject): (r: DelegateObject)
    ensures GetRmi(r) == GetRmi(d).(closed := false)
  {
    d.(closed := false)
  }

  /** Closing and opening are idempotent, and each undoes the other. */
  lemma CloseOpenIdempotent(d: DelegateObject)
    ensures Close(Close(d)) == Close(d) && Open(Open(d)) == Open(d)
    ensures Open(Close(d)) == Open(d) && Close(Open(d)) == Close(d)
    ensures !d.closed ==> Open(Close(d)) == d
  {
  }

  /** The supplier a proxy created with this delegate consults; `classes`
      are the types the delegate is an instance of. */
  function AsSupplier(d: DelegateObject, classes: set<string>): Option<Supplier> {
    Some(Supplier(classes, GetRmi(d)))
  }

  /** Through a closed delegate a remote method answers its default at
      once: no transaction id is consumed and nothing is sent. */
  lemma ClosedDelegateSendsNothing(s: Space, conn: ConnId, oid: int, d: DelegateObject, classes: set<string>,
                                   m: MethodSig, args: Option<seq<Value>>)
    requires m.declaring !in classes && Lookup(s.methods, m).Some?
    ensures var r := InvokeRemote(s, conn, oid, AsSupplier(Close(d), classes), m, args);
            r == Outbound(s, Success(ReturnNow(Primitize(Null, Lookup(s.methods, m).value.resClass))), None)
  {
  }

  /** A method the delegate itself implements runs on it, whatever the settings. */
  lemma DelegateImplementsMethod(s: Space, conn: ConnId, oid: int, d: DelegateObject, classes: set<string>,
                                 m: MethodSig, args: Option<seq<Value>>)
    requires m.declaring in classes
    ensures InvokeRemote(s, conn, oid, AsSupplier(d, classes), m, args) == Outbound(s, Success(RunOnDelegate), None)
  {
  }

  /** `waitForLastResponse()`: `getLastResult()` of the space. */
  function WaitForLastResponse(s: Space, elapsed: nat): (r: (Space, Result<Awaited, Error>))
    ensures s.lastTransactionId !in s.asyncExecutions ==>
              r.1 == Failure(NoAsyncExecution(s.lastTransactionId))
  {
    GetResult(s, s.lastTransactionId, -1, elapsed)
  }

  /** `hasLastResponse()`: `hasLastResult()` of the space. */
  predicate HasLastResponse(s: Space) {
    HasLastResult(s)
  }

  /**
   * The scenario of the delegate test: after `setNonBlocking(true)` a
   * remote call answers the default value at once; once its execution
   * event arrives, `waitForLastResponse()` returns the remote result.
   */
  lemma NonBlockingThenWaitForLastResponse(s: Space, conn: ConnId, oid: int, d: DelegateObject,
                                           classes: set<string>, m: MethodSig, args: Option<seq<Value>>,
                                           ee: ExecutionEvent, elapsed: nat)
    requires m.declaring !in classes
    requires !d.closed && !d.returnsNotRequired
    requires InvokeRemote(s, conn, oid, AsSupplier(SetNonBlocking(d, true), classes), m, args).sent.Some?
    requires ee.transactionId == s.transactionCounter && !ee.cached.isResLocal
    requires !HasResult(s, ee.transactionId)
    ensures var r := InvokeRemote(s, conn, oid, AsSupplier(SetNonBlocking(d, true), classes), m, args);
            && r.result == Success(ReturnNow(Primitize(Null, Lookup(s.methods, m).value.resClass)))
            && WaitForLastResponse(ReceiveExecution(r.space, Execution(ee)), elapsed).1 == Success(Answer(ee.result))
  {
    var r := InvokeRemote(s, conn, oid, AsSupplier(SetNonBlocking(d, true), classes), m, args);
    var s1 := ReceiveExecution(r.space, Execution(ee));
    assert s1.lastTransactionId == ee.transactionId && ee.transactionId in s1.asyncExecutions;
    assert s1.executionLock[ee.transactionId] == Done(ee);
  }

  // ---------------------------------------------------------------------
  // Response ids

  type SignedByte = x: int | -128 <= x < 128

  /** Java's `(byte)` cast: keep the low eight bits, read them as signed. */
  function ToSignedByte(x: int): (b: SignedByte)
    ensures (b - x) % 256 == 0
    ensures -128 <= x < 128 ==> b == x
  {
    (x + 128) % 256 - 128
  }

  /** `getLastResponseID()` as written: the last transaction id cast to a byte. */
  function LastResponseIdAsWritten(s: Space): (b: SignedByte)
    ensures -128 <= s.lastTransactionId < 128 ==> b == s.lastTransactionId
    ensures (b - s.lastTransactionId) % 256 == 0
  {
    ToSignedByte(s.lastTransactionId)
  }

  /** `waitForResponse(responseID)` as written: the byte widened back to a transaction id. */
  function WaitForResponseAsWritten(s: Space, responseId: SignedByte, elapsed: nat): (r: (Space, Result<Awaited, Error>))
    ensures responseId !in s.asyncExecutions ==> r == (s, Failure(NoAsyncExecution(responseId)))
  {
    GetResult(s, responseId, -1, elapsed)
  }

  /** `hasResponse(responseID)` as written. */
  predicate HasResponseAsWritten(s: Space, responseId: SignedByte) {
    HasResult(s, responseId)
  }

  /** While transaction ids fit in a byte, the id handed out collects the last result. */
  lemma ResponseIdRoundTripBelow128(s: Space, elapsed: nat)
    requires -128 <= s.lastTransactionId < 128
    ensures WaitForResponseAsWritten(s, LastResponseIdAsWritten(s), elapsed) == WaitForLastResponse(s, elapsed)
    ensures HasResponseAsWritten(s, LastResponseIdAsWritten(s)) == HasLastResponse(s)
  {
  }

  /** From transaction 128 on the byte names another transaction: after
      200 calls the last one is id 200, but its response id is -56. */
  lemma ResponseIdLostPast127()
    ensures var s := Empty.(lastTransactionId := 200, asyncExecutions := map[200 := AsyncExecution(0, 3000)]);
            && LastResponseIdAsWritten(s) == -56
            && WaitForResponseAsWritten(s, LastResponseIdAsWritten(s), 0).1 == Failure(NoAsyncExecution(-56))
            && WaitForLastResponse(s, 0).1 == Success(NotYet)
  {
    var s := Empty.(lastTransactionId := 200, asyncExecutions := map[200 := AsyncExecution(0, 3000)]);
    assert LastResponseIdAsWritten(s) == -56;
  }

  /** The response id as intended: the transaction id itself. */
  function LastResponseId(s: Space): (id: int)
    ensures -128 <= s.lastTransactionId < 128 ==> id == LastResponseIdAsWritten(s)
  {
    s.lastTransactionId
  }

  /** `waitForResponse` taking a full transaction id. */
  function WaitForResponse(s: Space, responseId: int, elapsed: nat): (r: (Space, Result<Awaited, Error>))
    ensures -128 <= responseId < 128 ==> r == WaitForResponseAsWritten(s, responseId, elapsed)
  {
    GetResult(s, responseId, -1, elapsed)
  }

  predicate HasResponse(s: Space, responseId: int) {
    HasResult(s, responseId)
  }

  /** With full ids, the response id handed out always collects the last result. */
  lemma ResponseIdRoundTrip(s: Space, elapsed: nat)
    ensures WaitForResponse(s, LastResponseId(s), elapsed) == WaitForLastResponse(s, elapsed)
    ensures HasResponse(s, LastResponseId(s)) == HasLastResponse(s)
  {
  }
}

=== FILE: dispatch.dfy ===
/**
 * Calling-convention dispatch of the invocation space: the proxy side of a
 * call (`invokeMethod(connection, objectId, delegate, method, params)`),
 * waiting for and querying results, the serving side
 * (`invokeMethod(connection, ie)`), and the two `received` handlers.
 * Threads become sequential events: a blocking wait is a read of the result
 * store after some elapsed time, and the user method's behaviour is a
 * parameter.
 */
module Dispatch {
  import opened Wrappers
  import opened Types
  import opened Rmi
  import opened CachedMethods
  import opened Events
  import opened ResultStore
  import opened Registration
  import opened ObjectSpace

  /** A local delegate handed to `createRemote`: the classes it is an
      instance of, and the calling convention its `getRMI()` reports. */
  datatype Supplier = Supplier(assignableTo: set<string>, policy: Policy)

  /** `delegationRequired`: the delegate's class implements the method's declaring class. */
  predicate DelegationRequired(d: Option<Supplier>, m: MethodSig) {
    d.Some? && m.declaring in d.value.assignableTo
  }

  /** `send`: UDP when the method's own policy asks for it, otherwise TCP. */
  datatype Transport = Tcp | Udp

  function TransportOf(c: CachedMethod): Transport {
    if c.rmi.udp then Udp else Tcp
  }

  /** The descriptor `midToCMet.get(metToMid.get(method, -1))`, if the method is registered. */
  function Lookup(g: Registry, m: MethodSig): Option<CachedMethod> {
    if m in g.metToMid && g.metToMid[m] in g.midToMet then
      Some(Build(g.metToMid[m], g.midToMet[g.metToMid[m]]))
    else None
  }

  /** The policy in force: the delegate's `getRMI()` when a delegate is present. */
  function EffectivePolicy(d: Option<Supplier>, c: CachedMethod): Policy {
    if d.Some? then d.value.policy else c.rmi
  }

  // ---------------------------------------------------------------------
  // Proxy side

  /** What a proxy call does once dispatched. */
  datatype CallResult =
    | RunOnDelegate                                      // `delegate(...)`: a local call
    | ReturnNow(value: Value)                            // nothing is awaited
    | Awaiting(transactionId: int, responseTimeout: int) // block on the result store

  /** An invocation handed to the connection. */
  datatype Sent = Sent(event: InvocationEvent, transport: Transport)

  datatype Outbound = Outbound(space: Space, result: Result<CallResult, Error>, sent: Option<Sent>)

  /** `invokeMethod(connection, objectId, delegate, method, params)` up to the wait. */
  function InvokeRemote(s: Space, conn: ConnId, oid: int, d: Option<Supplier>, m: MethodSig,
                        args: Option<seq<Value>>): (r: Outbound)
    // a delegate that implements the method runs it: no transaction, nothing sent
    ensures DelegationRequired(d, m) ==> r == Outbound(s, Success(RunOnDelegate), None)
    // an unregistered method fails; with an open delegate policy only after taking an id
    ensures !DelegationRequired(d, m) && Lookup(s.methods, m).None? ==>
              && r.result == Failure(UnregisteredMethod) && r.sent.None?
              && r.space == if d.Some? && !d.value.policy.closed
                            then s.(transactionCounter := Int32Succ(s.transactionCounter),
                                    lastTransactionId := s.transactionCounter)
                            else s
    // a closed policy answers the default value at once and leaves no trace
    ensures !DelegationRequired(d, m) && Lookup(s.methods, m).Some?
            && EffectivePolicy(d, Lookup(s.methods, m).value).closed ==>
              r == Outbound(s, Success(ReturnNow(Primitize(Null, Lookup(s.methods, m).value.resClass))), None)
    // otherwise one transaction id is consumed, whatever happens next
    ensures !DelegationRequired(d, m) && Lookup(s.methods, m).Some?
            && !EffectivePolicy(d, Lookup(s.methods, m).value).closed ==>
              && r.space.lastTransactionId == s.transactionCounter
              && r.space.transactionCounter == Int32Succ(s.transactionCounter)
    ensures r.space.methods == s.methods && r.space.proxies == s.proxies
    ensures r.space.executionLock == s.executionLock
    ensures TableGrows(s.objects, r.space.objects)
    ensures TableOk(s.objects) ==> TableOk(r.space.objects)
    ensures r.sent.Some? ==>
              && !DelegationRequired(d, m) && Lookup(s.methods, m).Some?
              && !EffectivePolicy(d, Lookup(s.methods, m).value).closed
              && r.sent.value.event.transactionId == s.transactionCounter
              && r.sent.value.event.objectId == oid
              && r.sent.value.event.cached == Lookup(s.methods, m).value
              && r.sent.value.transport == TransportOf(Lookup(s.methods, m).value)
    ensures r.result.Success? && !r.result.value.RunOnDelegate? && r.space != s ==> r.sent.Some?
    // what is sent is the call's invocation after `hostParams`, which alone changes the object table
    ensures !DelegationRequired(d, m) && Lookup(s.methods, m).Some?
            && !EffectivePolicy(d, Lookup(s.methods, m).value).closed ==>
              var h := HostParams(s.objects, ObtainInvocation(s.transactionCounter, oid, Lookup(s.methods, m).value, args));
              && r.space.objects == h.state
              && (r.sent.Some? <==> h.result.Success?)
              && (r.sent.Some? ==> r.sent.value.event == h.result.value)
              && (h.result.Failure? ==> r.result == Failure(h.result.error))
    // after sending: no-return and non-blocking calls answer the default; others wait
    ensures r.sent.Some? ==>
              var p := EffectivePolicy(d, Lookup(s.methods, m).value);
              var default := Primitize(Null, Lookup(s.methods, m).value.resClass);
              && (p.noReturns ==> r.result == Success(ReturnNow(default)))
              && (!p.noReturns && p.nonBlocking ==> r.result == Success(ReturnNow(default)))
              && (!p.noReturns && !p.nonBlocking ==>
                    r.result == Success(Awaiting(s.transactionCounter, p.responseTimeout)))
    // only a non-blocking call records where to collect its result
    ensures r.sent.Some? ==>
              var p := EffectivePolicy(d, Lookup(s.methods, m).value);
              && (!p.noReturns && p.nonBlocking ==>
                    r.space.asyncExecutions
                      == s.asyncExecutions[s.transactionCounter := AsyncExecution(conn, p.responseTimeout)])
              && (p.noReturns || !p.nonBlocking ==> r.space.asyncExecutions == s.asyncExecutions)
    ensures r.sent.None? ==> r.space.asyncExecutions == s.asyncExecutions
  {
    if DelegationRequired(d, m) then Outbound(s, Success(RunOnDelegate), None)
    else match Lookup(s.methods, m)
      case None =>
        // the descriptor is null: `cMethod.rmi`, `primitize` or `hostParams` dereferences it
        if d.Some? && !d.value.policy.closed then
          Outbound(s.(transactionCounter := Int32Succ(s.transactionCounter), lastTransactionId := s.transactionCounter),
                   Failure(UnregisteredMethod), None)
        else Outbound(s, Failure(UnregisteredMethod), None)
      case Some(c) =>
        var p := EffectivePolicy(d, c);
        var default := Primitize(Null, c.resClass);
        if p.closed then Outbound(s, Success(ReturnNow(default)), None)
        else
          var tid := s.transactionCounter;
          var s1 := s.(transactionCounter := Int32Succ(tid), lastTransactionId := tid);
          var h := HostParams(s1.objects, ObtainInvocation(tid, oid, c, args));
          var s2 := s1.(objects := h.state);
          match h.result
          case Failure(e) => Outbound(s2, Failure(e), None)
          case Success(ie) =>
            var sent := Some(Sent(ie, TransportOf(c)));
            if p.noReturns then Outbound(s2, Success(ReturnNow(default)), sent)
            else if p.nonBlocking then
              Outbound(s2.(asyncExecutions := s2.asyncExecutions[tid := AsyncExecution(conn, p.responseTimeout)]),
                       Success(ReturnNow(default)), sent)
            else Outbound(s2, Success(Awaiting(tid, p.responseTimeout)), sent)
  }

  /** Two calls that both reach the wire are numbered consecutively, and
      while the counter has not wrapped the second number is the larger. */
  lemma ConsecutiveCallsNumberedInOrder(s: Space, conn: ConnId, o1: int, o2: int, d1: Option<Supplier>,
                                        d2: Option<Supplier>, m1: MethodSig, m2: MethodSig,
                                        a1: Option<seq<Value>>, a2: Option<seq<Value>>)
    requires IsInt32(s.transactionCounter)
    requires InvokeRemote(s, conn, o1, d1, m1, a1).sent.Some?
    ensures var s1 := InvokeRemote(s, conn, o1, d1, m1, a1).space;
            var r2 := InvokeRemote(s1, conn, o2, d2, m2, a2);
            && (r2.sent.Some? ==> r2.sent.value.event.transactionId == Int32Succ(s.transactionCounter))
            && (r2.sent.Some? && s.transactionCounter < MaxInt32 ==>
                  r2.sent.value.event.transactionId > InvokeRemote(s, conn, o1, d1, m1, a1).sent.value.event.transactionId)
            && (r2.sent.Some? ==> r2.space.lastTransactionId == r2.sent.value.event.transactionId)
  {
  }

  /** The counter is an `AtomicInteger`: after `Integer.MAX_VALUE` the next
      call gets the most negative id. */
  lemma TransactionIdWraps(s: Space, conn: ConnId, oid: int, d: Option<Supplier>, m: MethodSig,
                           args: Option<seq<Value>>)
    requires s.transactionCounter == MaxInt32
    requires InvokeRemote(s, conn, oid, d, m, args).sent.Some?
    ensures InvokeRemote(s, conn, oid, d, m, args).sent.value.event.transactionId == MaxInt32
    ensures InvokeRemote(s, conn, oid, d, m, args).space.transactionCounter == MinInt32
  {
  }

  /** What a wait on the result store yields. */
  datatype Awaited = Answer(value: Value) | NotYet

  /** `createRemoteResult(connection, executionLock.read(transactionId, timeout)).use()`
      for a caller that has waited `elapsed` ms. */
  function AwaitResult(s: Space, conn: ConnId, tid: int, bound: int, elapsed: nat): (r: (Space, Result<Awaited, Error>))
    ensures r.0.methods == s.methods && r.0.objects == s.objects
    ensures r.0.asyncExecutions == s.asyncExecutions && r.0.lastTransactionId == s.lastTransactionId
    ensures r.0.transactionCounter == s.transactionCounter
    ensures ProxiesGrow(s.proxies, r.0.proxies)
    ensures ProxiesOk(s.proxies) ==> ProxiesOk(r.0.proxies)
    // a completed plain result is handed back as stored, and stays in the store
    ensures tid in s.executionLock && s.executionLock[tid].Done? && !s.executionLock[tid].value.cached.isResLocal ==>
              r == (s, Success(Answer(s.executionLock[tid].value.result)))
    // a completed closure result becomes null or a proxy on this connection
    ensures tid in s.executionLock && s.executionLock[tid].Done? && s.executionLock[tid].value.cached.isResLocal
            && r.1.Success? && ProxiesOk(s.proxies) ==>
              r.1.value.Answer? && ResolvedAs(r.0.proxies, conn, s.executionLock[tid].value.result, r.1.value.value)
    // nothing yet: time out past the bound (dropping the entry), else keep waiting
    ensures r.1 == Failure(TransactionTimeout(tid)) <==>
              (tid !in s.executionLock || s.executionLock[tid].Pending?) && elapsed >= bound
    ensures r.1 == Failure(TransactionTimeout(tid)) ==> r.0.executionLock == s.executionLock - {tid}
    ensures r.1 == Success(NotYet) ==>
              (tid !in s.executionLock || s.executionLock[tid].Pending?) && elapsed < bound
              && r.0.executionLock == BeginRead(s.executionLock, tid)
  {
    var (lock, wake) := Read(s.executionLock, tid, elapsed, bound);
    var s1 := s.(executionLock := lock);
    match wake
    case StillWaiting => (s1, Success(NotYet))
    case TimedOut(id) => (s1, Failure(TransactionTimeout(id)))
    case Got(ee) =>
      var c := CreateRemoteResult(s1.proxies, conn, ee);
      var s2 := s1.(proxies := c.state);
      match c.result
      case Failure(e) => (s2, Failure(e))
      case Success(ee1) => (s2, Success(Answer(ee1.result)))
  }

  function Max(a: int, b: int): int {
    if a >= b then a else b
  }

  /** `getResult(transactionId, responseTimeout)`: collect a non-blocking
      call's result on the connection it went out on, waiting at least as
      long as the call's own timeout. The record is not removed. */
  function GetResult(s: Space, tid: int, requested: int, elapsed: nat): (r: (Space, Result<Awaited, Error>))
    ensures tid !in s.asyncExecutions ==> r == (s, Failure(NoAsyncExecution(tid)))
    ensures r.0.asyncExecutions == s.asyncExecutions
    ensures tid in s.asyncExecutions ==>
              (r.1 == Failure(TransactionTimeout(tid)) <==>
                 (tid !in s.executionLock || s.executionLock[tid].Pending?)
                 && elapsed >= requested && elapsed >= s.asyncExecutions[tid].responseTimeout)
    ensures tid in s.asyncExecutions && tid in s.executionLock && s.executionLock[tid].Done?
            && !s.executionLock[tid].value.cached.isResLocal ==>
              r == (s, Success(Answer(s.executionLock[tid].value.result)))
  {
    if tid !in s.asyncExecutions then (s, Failure(NoAsyncExecution(tid)))
    else
      var ae := s.asyncExecutions[tid];
      AwaitResult(s, ae.conn, tid, Max(requested, ae.responseTimeout), elapsed)
  }

  /** `getResult(transactionId)` and `getLastResult()`: the requested timeout is -1,
      so the call's recorded timeout decides. */
  lemma DefaultRequestWaitsRecordedTimeout(s: Space, tid: int, elapsed: nat)
    requires tid in s.asyncExecutions && s.asyncExecutions[tid].responseTimeout >= -1
    ensures GetResult(s, tid, -1, elapsed)
            == AwaitResult(s, s.asyncExecutions[tid].conn, tid, s.asyncExecutions[tid].responseTimeout, elapsed)
  {
  }

  /** `getLastResult(responseTimeout)`. */
  function GetLastResult(s: Space, requested: int, elapsed: nat): (r: (Space, Result<Awaited, Error>))
    ensures s.lastTransactionId !in s.asyncExecutions ==>
              r == (s, Failure(NoAsyncExecution(s.lastTransactionId)))
    ensures var tid := s.lastTransactionId;
            tid in s.asyncExecutions && tid in s.executionLock && s.executionLock[tid].Done?
            && !s.executionLock[tid].value.cached.isResLocal ==>
              r == (s, Success(Answer(s.executionLock[tid].value.result)))
  {
    GetResult(s, s.lastTransactionId, requested, elapsed)
  }

  /** `hasTransaction`: the store holds an entry, pending or completed. */
  predicate HasTransaction(s: Space, tid: int) {
    tid in s.executionLock
  }

  /** `hasResult`: the store holds a completed entry. */
  predicate HasResult(s: Space, tid: int) {
    tid in s.executionLock && s.executionLock[tid].Done?
  }

  predicate HasAnyTransaction(s: Space) {
    HasTransaction(s, s.lastTransactionId)
  }

  predicate HasLastResult(s: Space) {
    HasResult(s, s.lastTransactionId)
  }

  // ---------------------------------------------------------------------
  // Serving side

  /** An execution event handed back to the connection. */
  datatype Reply = Reply(event: ExecutionEvent, transport: Transport)

  datatype Served = Served(space: Space, result: Result<Option<Reply>, Error>)

  /** `invokeMethod(connection, ie)`: resolve the callback ids, run the
      method on the hosted target (`run` stands for the user code), and send
      back the primitized result unless the method returns nothing. */
  function Serve(s: Space, conn: ConnId, ie: InvocationEvent, run: (Value, seq<Value>) -> Execution): (r: Served)
    ensures r.space == s.(proxies := r.space.proxies, objects := r.space.objects)
    ensures ProxiesGrow(s.proxies, r.space.proxies) && TableGrows(s.objects, r.space.objects)
    ensures ProxiesOk(s.proxies) ==> ProxiesOk(r.space.proxies)
    ensures TableOk(s.objects) ==> TableOk(r.space.objects)
    ensures r.result.Success? ==>
              ie.objectId in s.objects.oidToObj && CreateRemoteParams(s.proxies, conn, ie).result.Success?
    ensures CreateRemoteParams(s.proxies, conn, ie).result.Success? && ie.objectId !in s.objects.oidToObj ==>
              r.result == Failure(NoTarget(ie.objectId))
    ensures r.result.Success? && ie.cached.rmi.noReturns ==> r.result.value.None?
    ensures r.result.Success? && r.result.value.Some? ==>
              var ev := r.result.value.value.event;
              && !ie.cached.rmi.noReturns
              && ev.transactionId == ie.transactionId && ev.cached == ie.cached
              && r.result.value.value.transport == TransportOf(ie.cached)
              && (ev.objectId == ie.objectId || BitNot(ev.objectId) == ie.objectId)
    ensures r.result.Success? && r.result.value.Some? && !ie.cached.isResLocal
            && CreateRemoteParams(s.proxies, conn, ie).result.Success? ==>
              var ev := r.result.value.value.event;
              var args := CreateRemoteParams(s.proxies, conn, ie).result.value.params;
              var ex := run(s.objects.oidToObj[ie.objectId], args);
              && (ex.Returned? ==> ev.objectId == ie.objectId && ev.result == Primitize(ex.value, ie.cached.resClass))
              && (ex.Threw? ==> ev.objectId == BitNot(ie.objectId))
  {
    var c := CreateRemoteParams(s.proxies, conn, ie);
    var s1 := s.(proxies := c.state);
    match c.result
    case Failure(e) => Served(s1, Failure(e))
    case Success(ie1) =>
      if ie.objectId !in s.objects.oidToObj then Served(s1, Failure(NoTarget(ie.objectId)))
      else
        match InvokeMethod(ie.cached, ie.objectId, run(s.objects.oidToObj[ie.objectId], ie1.params))
        case Rethrown => Served(s1, Failure(RemoteFailure))
        case Unsupported => Served(s1, Failure(UnsupportedTransmission))
        case Completed(oid, result) =>
          if ie.cached.rmi.noReturns then Served(s1, Success(None))
          else
            var h := HostResult(s1.objects, ObtainExecution(ie.transactionId, oid, ie.cached, result));
            var s2 := s1.(objects := h.state);
            match h.result
            case Failure(e) => Served(s2, Failure(e))
            case Success(ee) => Served(s2, Success(Some(Reply(ee, TransportOf(ie.cached)))))
  }

  /**
   * What serving sends back when the user code throws, by the method's
   * `@TransmitExceptions` mode: nothing when the error stays local or the
   * whole exception would have to travel, and otherwise (unless the method
   * returns nothing) a reply under `~objectId` carrying the stack trace or
   * the message.
   */
  lemma ServeErrorReply(s: Space, conn: ConnId, ie: InvocationEvent, run: (Value, seq<Value>) -> Execution)
    requires CreateRemoteParams(s.proxies, conn, ie).result.Success?
    requires ie.objectId in s.objects.oidToObj
    requires run(s.objects.oidToObj[ie.objectId], CreateRemoteParams(s.proxies, conn, ie).result.value.params).Threw?
    ensures var ex := run(s.objects.oidToObj[ie.objectId], CreateRemoteParams(s.proxies, conn, ie).result.value.params);
            var mode := ie.cached.rmi.transmission;
            var r := Serve(s, conn, ie, run);
            && (mode == LocalOnly ==> r.result == Failure(RemoteFailure))
            && (mode == Whole ==> r.result == Failure(UnsupportedTransmission))
            && (ie.cached.rmi.noReturns && (mode == ToString || mode == GetMessage) ==> r.result == Success(None))
            && (!ie.cached.rmi.noReturns && !ie.cached.isResLocal && mode == ToString ==>
                  r.result == Success(Some(Reply(ExecutionEvent(ie.transactionId, BitNot(ie.objectId), ie.cached,
                                                                Text(ex.stackTrace)), TransportOf(ie.cached)))))
            && (!ie.cached.rmi.noReturns && !ie.cached.isResLocal && mode == GetMessage ==>
                  r.result == Success(Some(Reply(ExecutionEvent(ie.transactionId, BitNot(ie.objectId), ie.cached,
                                                                Primitize(ex.message, ie.cached.resClass)),
                                                 TransportOf(ie.cached)))))
  {
  }

  /** An object arriving on a connection. */
  datatype Message =
    | Invocation(ie: InvocationEvent)
    | Execution(ee: ExecutionEvent)
    | Other                                   // framework messages, pings, user objects

  /** `InvocationEvent.Handler.received`: serve invocations, ignore anything else. */
  function ReceiveInvocation(s: Space, conn: ConnId, msg: Message, run: (Value, seq<Value>) -> Execution): (r: Served)
    ensures !msg.Invocation? ==> r == Served(s, Success(None))
    ensures msg.Invocation? ==> r == Serve(s, conn, msg.ie, run)
  {
    match msg
    case Invocation(ie) => Serve(s, conn, ie, run)
    case _ => Served(s, Success(None))
  }

  /** `ExecutionEvent.Handler.received`: store an execution under its transaction id. */
  function ReceiveExecution(s: Space, msg: Message): (r: Space)
    ensures !msg.Execution? ==> r == s
    ensures msg.Execution? ==> r == s.(executionLock := r.executionLock)
    ensures msg.Execution? ==> HasResult(r, msg.ee.transactionId)
    ensures msg.Execution? && !HasTransaction(s, msg.ee.transactionId) ==>
              r.executionLock[msg.ee.transactionId] == Done(msg.ee)
    ensures msg.Execution? && HasResult(s, msg.ee.transactionId) ==> r == s
  {
    match msg
    case Execution(ee) => s.(executionLock := Write(s.executionLock, ee.transactionId, ee))
    case _ => s
  }

  /** A plain result that arrives before or during the wait is what the waiting call returns. */
  lemma ArrivalThenAwait(s: Space, conn: ConnId, ee: ExecutionEvent, bound: int, elapsed: nat)
    requires !HasResult(s, ee.transactionId)
    requires !ee.cached.isResLocal
    ensures var s1 := ReceiveExecution(s, Execution(ee));
            AwaitResult(s1, conn, ee.transactionId, bound, elapsed) == (s1, Success(Answer(ee.result)))
  {
  }

  /** A wait that has timed out forgets the transaction, so a late answer
      is stored as a fresh completed entry that no waiter is blocked on. */
  lemma TimeoutThenLateArrival(s: Space, conn: ConnId, ee: ExecutionEvent, bound: int, elapsed: nat)
    requires !HasResult(s, ee.transactionId) && elapsed >= bound
    ensures var (s1, r1) := AwaitResult(s, conn, ee.transactionId, bound, elapsed);
            && r1 == Failure(TransactionTimeout(ee.transactionId))
            && !HasTransaction(s1, ee.transactionId)
            && HasResult(ReceiveExecution(s1, Execution(ee)), ee.transactionId)
  {
  }

  // ---------------------------------------------------------------------
  // A whole call

  /** A registered method's descriptor is the one the table holds under its id. */
  lemma LookupInTable(g: Registry, m: MethodSig)
    requires Lookup(g, m).Some?
    ensures Lookup(g, m).value.id in Table(g) && Table(g)[Lookup(g, m).value.id] == Lookup(g, m).value
  {
    var c := Lookup(g, m).value;
    assert c.id == g.metToMid[m];
    assert WellFormed(Table(g)[c.id]);
  }

  /** In a sent call every callback argument travels as the id its object
      is hosted under in the caller's table afterwards (-1 for null), and
      every other argument travels as given. */
  lemma SentCallbacksAreHosted(s: Space, conn: ConnId, oid: int, d: Option<Supplier>, m: MethodSig, args: seq<Value>)
    requires TableOk(s.objects)
    requires InvokeRemote(s, conn, oid, d, m, Some(args)).sent.Some?
    ensures var r := InvokeRemote(s, conn, oid, d, m, Some(args));
            var idxs := Lookup(s.methods, m).value.localParamIndices;
            var sent := r.sent.value.event.params;
            && |sent| == |args|
            && (forall j :: 0 <= j < |args| && j !in idxs ==> sent[j] == args[j])
            && (forall k :: 0 <= k < |idxs| ==>
                  0 <= idxs[k] < |args| && HostedAs(r.space.objects, args[idxs[k]], sent[idxs[k]]))
  {
    var c := Lookup(s.methods, m).value;
    var ie := ObtainInvocation(s.transactionCounter, oid, c, Some(args));
    HostSlotsHostEverySlot(s.objects, ie.params, c.localParamIndices);
  }

  /** Without callback parameters a blocking call sends exactly the
      invocation `obtain` builds, and waits for it under its transaction id. */
  lemma PlainCallSends(s: Space, conn: ConnId, oid: int, m: MethodSig, args: seq<Value>)
    requires Lookup(s.methods, m).Some?
    requires var c := Lookup(s.methods, m).value;
             c.localParamIndices == [] && !c.rmi.closed && !c.rmi.noReturns && !c.rmi.nonBlocking
    ensures var c := Lookup(s.methods, m).value;
            var out := InvokeRemote(s, conn, oid, None, m, Some(args));
            && out.sent == Some(Sent(ObtainInvocation(s.transactionCounter, oid, c, Some(args)), TransportOf(c)))
            && out.result == Success(Awaiting(s.transactionCounter, c.rmi.responseTimeout))
            && out.space.executionLock == s.executionLock
  {
  }

  /** The serving side of a plain call: the hosted target runs on the
      arguments as sent, and the reply carries its primitized result. */
  lemma PlainCallServed(s: Space, conn: ConnId, ie: InvocationEvent, run: (Value, seq<Value>) -> Execution, v: Value)
    requires ie.cached.localParamIndices == [] && !ie.cached.isResLocal && !ie.cached.rmi.noReturns
    requires ie.objectId in s.objects.oidToObj
    requires run(s.objects.oidToObj[ie.objectId], ie.params) == Returned(v)
    ensures Serve(s, conn, ie, run).result
            == Success(Some(Reply(ObtainExecution(ie.transactionId, ie.objectId, ie.cached, v), TransportOf(ie.cached))))
  {
    assert CreateRemoteParams(s.proxies, conn, ie).result == Success(ie);
  }

  /** The invocation of a plain call crosses the wire intact and is served. */
  lemma PlainCallReachesServer(sc: Space, ss: Space, cconn: ConnId, sconn: ConnId, oid: int,
                               m: MethodSig, args: seq<Value>, run: (Value, seq<Value>) -> Execution, v: Value)
    requires Lookup(sc.methods, m).Some? && Lookup(ss.methods, m) == Lookup(sc.methods, m)
    requires var c := Lookup(sc.methods, m).value;
             && c.localParamIndices == [] && !c.isResLocal
             && !c.rmi.closed && !c.rmi.noReturns && !c.rmi.nonBlocking
             && |args| <= |c.serClasses| && (forall i :: 0 <= i < |args| ==> Conforms(args[i], c.serClasses[i]))
    requires oid in ss.objects.oidToObj && run(ss.objects.oidToObj[oid], args) == Returned(v)
    ensures var c := Lookup(sc.methods, m).value;
            var ie := ObtainInvocation(sc.transactionCounter, oid, c, Some(args));
            && WriteInvocation(ie).Success?
            && ReadInvocation(Table(ss.methods), WriteInvocation(ie).value) == Success((ie, []))
            && Serve(ss, sconn, ie, run).result
               == Success(Some(Reply(ObtainExecution(sc.transactionCounter, oid, c, v), TransportOf(c))))
  {
    var c := Lookup(sc.methods, m).value;
    var ie := ObtainInvocation(sc.transactionCounter, oid, c, Some(args));
    assert ie.params == args && ie.cached == c && ie.objectId == oid;
    assert WriteInvocation(ie).Success?;
    LookupInTable(ss.methods, m);
    InvocationRoundTrip(Table(ss.methods), ie, []);
    assert WriteInvocation(ie).value + [] == WriteInvocation(ie).value;
    PlainCallServed(ss, sconn, ie, run, v);
  }

  /** The reply to a plain call crosses the wire intact, and once received
      the waiting caller returns its result. */
  lemma PlainReplyReachesCaller(s: Space, conn: ConnId, m: MethodSig, tid: int, oid: int, v: Value,
                                timeout: int, elapsed: nat)
    requires Lookup(s.methods, m).Some?
    requires var c := Lookup(s.methods, m).value; !c.isResLocal && Conforms(v, c.resClass)
    requires !HasResult(s, tid)
    ensures var c := Lookup(s.methods, m).value;
            var ee := ObtainExecution(tid, oid, c, v);
            && WriteExecution(ee).Success?
            && ReadExecution(Table(s.methods), WriteExecution(ee).value) == Success((ee, []))
            && AwaitResult(ReceiveExecution(s, Execution(ee)), conn, tid, timeout, elapsed).1
               == Success(Answer(Primitize(v, c.resClass)))
  {
    var c := Lookup(s.methods, m).value;
    var ee := ObtainExecution(tid, oid, c, v);
    assert SendableResult(ee);
    LookupInTable(s.methods, m);
    ExecutionRoundTrip(Table(s.methods), ee, []);
    assert WriteExecution(ee).value + [] == WriteExecution(ee).value;
    ArrivalThenAwait(s, conn, ee, timeout, elapsed);
  }

  /**
   * A blocking call of a method without callbacks or closure result, on a
   * hosted object whose method returns `v`: the caller sends the invocation
   * and waits; the invocation survives the wire and the server replies; the
   * reply survives the wire, and the waiting caller returns `v` primitized
   * to the declared return type.
   */
  lemma PlainCallReturnsResult(sc: Space, ss: Space, cconn: ConnId, sconn: ConnId, oid: int,
                               m: MethodSig, args: seq<Value>,
                               run: (Value, seq<Value>) -> Execution, v: Value, elapsed: nat)
    requires Lookup(sc.methods, m).Some? && Lookup(ss.methods, m) == Lookup(sc.methods, m)
    requires var c := Lookup(sc.methods, m).value;
             && c.localParamIndices == [] && !c.isResLocal
             && !c.rmi.closed && !c.rmi.noReturns && !c.rmi.nonBlocking
             && |args| <= |c.serClasses| && (forall i :: 0 <= i < |args| ==> Conforms(args[i], c.serClasses[i]))
             && Conforms(v, c.resClass)
    requires oid in ss.objects.oidToObj && run(ss.objects.oidToObj[oid], args) == Returned(v)
    requires !HasResult(sc, sc.transactionCounter)
    ensures var c := Lookup(sc.methods, m).value;
            var tid := sc.transactionCounter;
            var ie := ObtainInvocation(tid, oid, c, Some(args));
            var ee := ObtainExecution(tid, oid, c, v);
            var out := InvokeRemote(sc, cconn, oid, None, m, Some(args));
            && out.sent == Some(Sent(ie, TransportOf(c)))
            && out.result == Success(Awaiting(tid, c.rmi.responseTimeout))
            && WriteInvocation(ie).Success?
            && ReadInvocation(Table(ss.methods), WriteInvocation(ie).value) == Success((ie, []))
            && Serve(ss, sconn, ie, run).result == Success(Some(Reply(ee, TransportOf(c))))
            && WriteExecution(ee).Success?
            && ReadExecution(Table(sc.methods), WriteExecution(ee).value) == Success((ee, []))
            && AwaitResult(ReceiveExecution(out.space, Execution(ee)), cconn, tid, c.rmi.responseTimeout, elapsed).1
               == Success(Answer(Primitize(v, Lookup(sc.methods, m).value.resClass)))
  {
    var c := Lookup(sc.methods, m).value;
    var out := InvokeRemote(sc, cconn, oid, None, m, Some(args));
    PlainCallSends(sc, cconn, oid, m, args);
    PlainCallReachesServer(sc, ss, cconn, sconn, oid, m, args, run, v);
    assert out.space.methods == sc.methods && !HasResult(out.space, sc.transactionCounter);
    PlainReplyReachesCaller(out.space, cconn, m, sc.transactionCounter, oid, v, c.rmi.responseTimeout, elapsed);
  }
}

=== FILE: events.dfy ===
/**
 * The two wire messages: `InvocationEvent` (a call) and `ExecutionEvent`
 * (its result), with their `write`/`read` pairs over the token codec.
 * Object pools are left out; events are immutable values.
 */
module Events {
  import opened Wrappers
  import opened Types
  import opened CachedMethods
  import opened Codec

  datatype InvocationEvent = InvocationEvent(
    transactionId: int,
    objectId: int,
    cached: CachedMethod,
    params: seq<Value>)

  datatype ExecutionEvent = ExecutionEvent(
    transactionId: int,
    objectId: int,             // negative: the result is an encoded error
    cached: CachedMethod,
    result: Value)

  /** `obtainIE`: a missing argument array becomes an empty one. */
  function ObtainInvocation(tid: int, oid: int, m: CachedMethod, args: Option<seq<Value>>): (ie: InvocationEvent)
    ensures ie.transactionId == tid && ie.objectId == oid && ie.cached == m
    ensures args.None? ==> ie.params == []
    ensures args.Some? ==> ie.params == args.value
  {
    InvocationEvent(tid, oid, m, if args.Some? then args.value else [])
  }

  /** `obtainEE`: the result is stored primitized, so a missing primitive result is zero. */
  function ObtainExecution(tid: int, oid: int, m: CachedMethod, result: Value): (ee: ExecutionEvent)
    ensures ee.transactionId == tid && ee.objectId == oid && ee.cached == m
    ensures result != Null ==> ee.result == result
    ensures m.resClass.Primitive? && m.resClass.kind != Void ==> ee.result != Null
    ensures Primitize(ee.result, m.resClass) == ee.result
    ensures Conforms(result, m.resClass) ==> Conforms(ee.result, m.resClass)
  {
    ExecutionEvent(tid, oid, m, Primitize(result, m.resClass))
  }

  /** `readVarInt`, failing on a malformed stream. */
  function ReadInt(ts: seq<Token>): (r: Result<(int, seq<Token>), Error>)
    ensures r.Success? <==> |ts| > 0 && ts[0].VarInt?
    ensures r.Success? ==> r.value == (ts[0].n, ts[1..])
  {
    match ReadVarInt(ts)
    case Some(p) => Success(p)
    case None => Failure(Malformed)
  }

  /** `InvocationEvent.Handler.write`: the three ids, the argument count,
      then each argument written with its wire class. More arguments than
      wire classes, or an argument its class's serializer cannot take, throw. */
  function WriteInvocation(ie: InvocationEvent): (r: Result<seq<Token>, Error>)
    ensures r.Success? <==> |ie.params| <= |ie.cached.serClasses|
                            && forall i :: 0 <= i < |ie.params| ==> Conforms(ie.params[i], ie.cached.serClasses[i])
    ensures r.Failure? && |ie.params| <= |ie.cached.serClasses| ==> r.error == BadCast
    ensures r.Success? ==> |r.value| == 4 + |ie.params|
    ensures r.Success? ==>
              r.value[..4] == [VarInt(ie.transactionId), VarInt(ie.objectId), VarInt(ie.cached.id), VarInt(|ie.params|)]
  {
    var n := |ie.params|;
    if n > |ie.cached.serClasses| then Failure(IndexOutOfRange(|ie.cached.serClasses|))
    else
      var header := [VarInt(ie.transactionId), VarInt(ie.objectId), VarInt(ie.cached.id), VarInt(n)];
      var body :- EncodeAll(ie.params, ie.cached.serClasses[..n]);
      assert (header + body)[..4] == header;
      Success(header + body)
  }

  /** `InvocationEvent.Handler.read`: the method comes from the id table and
      the arguments are read with its wire classes. */
  function ReadInvocation(table: MethodTable, ts: seq<Token>): (r: Result<(InvocationEvent, seq<Token>), Error>)
    ensures r.Success? ==> |ts| >= 4 && ts[2].VarInt? && ts[2].n in table
    ensures r.Success? ==> var ie := r.value.0;
              && ts[0] == VarInt(ie.transactionId)
              && ts[1] == VarInt(ie.objectId)
              && ie.cached == table[ts[2].n]
              && ts[3] == VarInt(|ie.params|)
              && |ie.params| <= |ie.cached.serClasses|
              && forall i :: 0 <= i < |ie.params| ==> Conforms(ie.params[i], ie.cached.serClasses[i])
  {
    var tid :- ReadInt(ts);
    var oid :- ReadInt(tid.1);
    var mid :- ReadInt(oid.1);
    var len :- ReadInt(mid.1);
    var n := len.0;
    if n < 0 then Failure(NegativeArraySize(n))
    else if mid.0 !in table then Failure(UnknownMethodId(mid.0))
    else
      var m := table[mid.0];
      if n > |m.serClasses| then Failure(IndexOutOfRange(|m.serClasses|))
      else match DecodeAll(len.1, m.serClasses[..n])
        case None => Failure(Malformed)
        case Some((ps, rest)) => Success((InvocationEvent(tid.0, oid.0, m, ps), rest))
  }

  /** For a registered method, `read` inverts every `write` that succeeds. */
  lemma InvocationRoundTrip(table: MethodTable, ie: InvocationEvent, rest: seq<Token>)
    requires ie.cached.id in table && table[ie.cached.id] == ie.cached
    ensures WriteInvocation(ie).Success? ==> ReadInvocation(table, WriteInvocation(ie).value + rest) == Success((ie, rest))
  {
    if WriteInvocation(ie).Success? {
      var n := |ie.params|;
      var types := ie.cached.serClasses[..n];
      var body := EncodeAll(ie.params, types).value;
      var header := [VarInt(ie.transactionId), VarInt(ie.objectId), VarInt(ie.cached.id), VarInt(n)];
      assert WriteInvocation(ie).value == header + body;
      var ts := WriteInvocation(ie).value + rest;
      assert ts == header + (body + rest);
      assert ts[4..] == body + rest;
      RoundTripAll(ie.params, types, rest);
      assert DecodeAll(ts[4..], types) == Some((ie.params, rest));
      assert ie == InvocationEvent(ie.transactionId, ie.objectId, ie.cached, ie.params);
    }
  }

  /** Callback slots are read with class `int`: they arrive as object ids (or null). */
  lemma CallbackSlotsArriveAsIds(table: MethodTable, ts: seq<Token>)
    requires forall id :: id in table ==> WellFormed(table[id])
    requires ReadInvocation(table, ts).Success?
    ensures var ie := ReadInvocation(table, ts).value.0;
            forall k :: 0 <= k < |ie.cached.localParamIndices| && 0 <= ie.cached.localParamIndices[k] < |ie.params| ==>
              var v := ie.params[ie.cached.localParamIndices[k]];
              v == Null || (v.Prim? && v.kind == Int)
  {
    var ie := ReadInvocation(table, ts).value.0;
    var m := ie.cached;
    assert WellFormed(table[ts[2].n]);
    forall k | 0 <= k < |m.localParamIndices| && 0 <= m.localParamIndices[k] < |ie.params|
      ensures ie.params[m.localParamIndices[k]] == Null
              || (ie.params[m.localParamIndices[k]].Prim? && ie.params[m.localParamIndices[k]].kind == Int)
    {
      var i := m.localParamIndices[k];
      assert m == Build(m.id, m.sig);
      assert i in m.localParamIndices;
      assert m.serClasses[i] == IntType;
      assert Conforms(ie.params[i], m.serClasses[i]);
    }
  }

  /** `ExecutionEvent.Handler.write`: the three ids, then a closure result as
      an int id, any other result written with the result class (whose
      serializer throws on a result that is not of that class). */
  function WriteExecution(ee: ExecutionEvent): (r: Result<seq<Token>, Error>)
    ensures r.Success? ==> |r.value| == 4
    ensures r.Success? ==> r.value[..3] == [VarInt(ee.transactionId), VarInt(ee.objectId), VarInt(ee.cached.id)]
    ensures ee.cached.isResLocal ==> (r.Success? <==> ee.result.Prim? && ee.result.kind == Int)
    ensures r.Success? && ee.cached.isResLocal ==> r.value[3] == VarInt(ee.result.bits)
    ensures !ee.cached.isResLocal ==> (r.Success? <==> Conforms(ee.result, ee.cached.resClass))
    ensures r.Success? && !ee.cached.isResLocal ==> r.value[3..] == Encode(ee.result, ee.cached.resClass).value
    ensures r.Failure? ==> r.error == BadCast
  {
    var header := [VarInt(ee.transactionId), VarInt(ee.objectId), VarInt(ee.cached.id)];
    if ee.cached.isResLocal then
      match ee.result
      case Prim(Int, n) => Success(header + [VarInt(n)])
      case _ => Failure(BadCast)   // `(Integer) ee.result` on a non-id result
    else
      var body :- Encode(ee.result, ee.cached.resClass);
      Success(header + body)
  }

  /** The fixed part of `read`: the three ids and the method they name. */
  function ReadExecutionHeader(table: MethodTable, ts: seq<Token>): (r: Result<(int, int, CachedMethod, seq<Token>), Error>)
    ensures r.Success? ==> |ts| >= 3 && ts[0] == VarInt(r.value.0) && ts[1] == VarInt(r.value.1)
                           && ts[2].VarInt? && ts[2].n in table && r.value.2 == table[ts[2].n]
                           && r.value.3 == ts[3..]
  {
    var tid :- ReadInt(ts);
    var oid :- ReadInt(tid.1);
    var mid :- ReadInt(oid.1);
    if mid.0 !in table then Failure(UnknownMethodId(mid.0))
    else Success((tid.0, oid.0, table[mid.0], mid.1))
  }

  /**
   * `ExecutionEvent.Handler.read` as written. The event comes from a pool
   * that does not clear what it hands back, and `pooled` is the result
   * that event last held (`Null` when it is fresh). For a closure result
   * the id is consumed but never stored, so the event keeps `pooled`.
   */
  function ReadExecutionAsWritten(table: MethodTable, ts: seq<Token>, pooled: Value): (r: Result<(ExecutionEvent, seq<Token>), Error>)
    ensures r.Success? && r.value.0.cached.isResLocal ==> r.value.0.result == pooled
    ensures r.Success? && !r.value.0.cached.isResLocal ==>
              Primitize(r.value.0.result, r.value.0.cached.resClass) == r.value.0.result
  {
    var h :- ReadExecutionHeader(table, ts);
    var m := h.2;
    if m.isResLocal then
      var id :- ReadInt(h.3);
      Success((ExecutionEvent(h.0, h.1, m, pooled), id.1))
    else match Decode(h.3, m.resClass)
      case None => Failure(Malformed)
      case Some((v, rest)) => Success((ExecutionEvent(h.0, h.1, m, Primitize(v, m.resClass)), rest))
  }

  /** The corrected reader: a closure result keeps the object id it was sent with. */
  function ReadExecution(table: MethodTable, ts: seq<Token>): (r: Result<(ExecutionEvent, seq<Token>), Error>)
    ensures r.Success? ==> |ts| >= 4 && ts[0] == VarInt(r.value.0.transactionId)
                           && ts[1] == VarInt(r.value.0.objectId) && ts[2].VarInt?
                           && ts[2].n in table && r.value.0.cached == table[ts[2].n]
    ensures r.Success? && r.value.0.cached.isResLocal ==> ts[3].VarInt? && r.value.0.result == IntV(ts[3].n)
    ensures r.Success? && !r.value.0.cached.isResLocal ==>
              Primitize(r.value.0.result, r.value.0.cached.resClass) == r.value.0.result
  {
    var h :- ReadExecutionHeader(table, ts);
    var m := h.2;
    if m.isResLocal then
      var id :- ReadInt(h.3);
      Success((ExecutionEvent(h.0, h.1, m, IntV(id.0)), id.1))
    else match Decode(h.3, m.resClass)
      case None => Failure(Malformed)
      case Some((v, rest)) => Success((ExecutionEvent(h.0, h.1, m, Primitize(v, m.resClass)), rest))
  }

  /**
   * The as-written reader and the corrected one accept the same streams
   * and read the same event from them, except for a closure result: there
   * the corrected reader has the id and the as-written one the stale value.
   */
  lemma AsWrittenDiffersOnlyInClosureResult(table: MethodTable, ts: seq<Token>, pooled: Value)
    ensures ReadExecutionAsWritten(table, ts, pooled).Success? <==> ReadExecution(table, ts).Success?
    ensures ReadExecution(table, ts).Success? ==>
              var e := ReadExecution(table, ts).value;
              ReadExecutionAsWritten(table, ts, pooled).value
                == (if e.0.cached.isResLocal then e.0.(result := pooled) else e.0, e.1)
  {
  }

  /** The results a well-behaved sender puts in an `ExecutionEvent`: an int
      id for a closure result, otherwise a primitized value of the result class. */
  ghost predicate SendableResult(ee: ExecutionEvent) {
    if ee.cached.isResLocal then ee.result.Prim? && ee.result.kind == Int
    else Conforms(ee.result, ee.cached.resClass) && Primitize(ee.result, ee.cached.resClass) == ee.result
  }

  /**
   * The corrected reader inverts every `write` that succeeds, with the
   * object id (error-flagged or not) carried verbatim; only a missing
   * primitive result comes back as its zero. Every sendable result is
   * written and comes back unchanged.
   */
  lemma ExecutionRoundTrip(table: MethodTable, ee: ExecutionEvent, rest: seq<Token>)
    requires ee.cached.id in table && table[ee.cached.id] == ee.cached
    ensures WriteExecution(ee).Success? ==>
              ReadExecution(table, WriteExecution(ee).value + rest)
                == Success((if ee.cached.isResLocal then ee else ee.(result := Primitize(ee.result, ee.cached.resClass)), rest))
    ensures SendableResult(ee) ==>
              WriteExecution(ee).Success? && ReadExecution(table, WriteExecution(ee).value + rest) == Success((ee, rest))
  {
    if WriteExecution(ee).Success? {
      var ts := WriteExecution(ee).value + rest;
      assert ts[3..] == WriteExecution(ee).value[3..] + rest;
      if !ee.cached.isResLocal {
        RoundTrip(ee.result, ee.cached.resClass, rest);
      } else {
        assert ts[4..] == rest;
      }
    }
  }

  /**
   * As written, `read` still inverts every successful `write` of a result
   * that is not a closure, whatever the pooled event held before.
   */
  lemma PlainResultRoundTripAsWritten(table: MethodTable, ee: ExecutionEvent, rest: seq<Token>, pooled: Value)
    requires ee.cached.id in table && table[ee.cached.id] == ee.cached
    requires !ee.cached.isResLocal
    ensures WriteExecution(ee).Success? ==>
              ReadExecutionAsWritten(table, WriteExecution(ee).value + rest, pooled)
                == Success((ee.(result := Primitize(ee.result, ee.cached.resClass)), rest))
  {
    if WriteExecution(ee).Success? {
      var ts := WriteExecution(ee).value + rest;
      assert ts[3..] == Encode(ee.result, ee.cached.resClass).value + rest;
      RoundTrip(ee.result, ee.cached.resClass, rest);
    }
  }

  /**
   * As written, the id sent for a closure result is lost: the result read
   * back is whatever the pooled event last held, null when it is fresh,
   * and it matches the id sent only when the stale value happens to.
   */
  lemma ClosureResultIdDropped(table: MethodTable, ee: ExecutionEvent, rest: seq<Token>, pooled: Value)
    requires ee.cached.id in table && table[ee.cached.id] == ee.cached
    requires ee.cached.isResLocal && ee.result.Prim? && ee.result.kind == Int
    ensures WriteExecution(ee).Success?
    ensures ReadExecutionAsWritten(table, WriteExecution(ee).value + rest, pooled) == Success((ee.(result := pooled), rest))
    ensures ReadExecutionAsWritten(table, WriteExecution(ee).value + rest, pooled) == Success((ee, rest)) <==> pooled == ee.result
    ensures ReadExecutionAsWritten(table, WriteExecution(ee).value + rest, Null) != Success((ee, rest))
  {
    var ts := WriteExecution(ee).value + rest;
    assert ts[3..] == [VarInt(ee.result.bits)] + rest;
  }
}

=== FILE: object_space.dfy ===
/**
 * The invocation space (`ObjectSpaceV2`) as a state record: the method
 * registry, the object table, the per-connection proxy cache and the
 * transaction bookkeeping, with the symmetric substitution of
 * callback-style values by object ids.
 */
module ObjectSpace {
  import opened Wrappers
  import opened Types
  import opened CachedMethods
  import opened Events
  import opened ResultStore
  import opened Registration

  /** Hosted objects: `oidToObj`, `objToOid` and the next implicit id. */
  datatype ObjectTable = ObjectTable(nextObjectId: int, oidToObj: map<int, Value>, objToOid: map<Value, int>)

  /** Proxies by connection and object id, and the next implicit proxy id. */
  datatype ProxyCache = ProxyCache(nextProxyId: int, byConn: map<ConnId, map<int, Value>>)

  /** `AsyncExecution`: where and how long to wait for a non-blocking call's result. */
  datatype AsyncExecution = AsyncExecution(conn: ConnId, responseTimeout: int)

  datatype Space = Space(
    methods: Registry,
    objects: ObjectTable,
    proxies: ProxyCache,
    asyncExecutions: map<int, AsyncExecution>,
    lastTransactionId: int,
    transactionCounter: int,                     // transactionIdSupplier
    executionLock: Store<ExecutionEvent>)

  /** A freshly constructed space. */
  const Empty: Space :=
    Space(EmptyRegistry, ObjectTable(0, map[], map[]), ProxyCache(0, map[]), map[], -1, 0, map[])

  /** The state `S` after an operation that may fail part-way, with its outcome. */
  datatype Outcome<S, T> = Outcome(state: S, result: Result<T, Error>)

  // ---------------------------------------------------------------------
  // Object table

  /** Every object's id is bound to that object. */
  ghost predicate TableOk(t: ObjectTable) {
    forall o :: o in t.objToOid ==> t.objToOid[o] in t.oidToObj && t.oidToObj[t.objToOid[o]] == o
  }

  /** `u` keeps every binding of `t`. */
  ghost predicate TableGrows(t: ObjectTable, u: ObjectTable) {
    && (forall id :: id in t.oidToObj ==> id in u.oidToObj && u.oidToObj[id] == t.oidToObj[id])
    && (forall o :: o in t.objToOid ==> o in u.objToOid && u.objToOid[o] == t.objToOid[o])
  }

  /** Object ids and the next id are non-negative. */
  ghost predicate NonNegativeIds(t: ObjectTable) {
    t.nextObjectId >= 0 && forall id :: id in t.oidToObj ==> id >= 0
  }

  /** Ids are non-negative and `n` more implicit hosts stay below the largest `int`. */
  ghost predicate Headroom(t: ObjectTable, n: nat) {
    NonNegativeIds(t) && t.nextObjectId + n <= MaxInt32
  }

  /** `saveObject`: bind `id` to `obj`, failing if `id` is taken; the next
      implicit id becomes `id + 1` in `int` arithmetic. Its only callers
      have already dereferenced `obj`, so it is never null here. */
  function SaveObject(t: ObjectTable, id: int, obj: Value): (r: Result<ObjectTable, Error>)
    requires obj != Null
    ensures r.Failure? <==> id in t.oidToObj
    ensures r.Failure? ==> r.error == ObjectIdInUse(id)
    ensures r.Success? ==> r.value.nextObjectId == Int32Succ(id)
    ensures r.Success? ==> id in r.value.oidToObj && r.value.oidToObj[id] == obj
    ensures r.Success? ==> obj in r.value.objToOid && r.value.objToOid[obj] == id
    ensures r.Success? ==> forall k :: k != id ==> (k in r.value.oidToObj <==> k in t.oidToObj)
    ensures r.Success? ==> forall o :: o != obj ==> (o in r.value.objToOid <==> o in t.objToOid)
    ensures r.Success? && obj !in t.objToOid ==> TableGrows(t, r.value)
    ensures r.Success? && TableOk(t) ==> TableOk(r.value)
  {
    if id in t.oidToObj then Failure(ObjectIdInUse(id))
    else Success(ObjectTable(Int32Succ(id), t.oidToObj[id := obj], t.objToOid[obj := id]))
  }

  /** `hostObject(connection|server, objectId, object)`: `object.getClass()`
      throws on null before anything changes; otherwise `saveObject`. */
  function HostObject(t: ObjectTable, id: int, obj: Value): (r: Result<ObjectTable, Error>)
    ensures r.Failure? <==> obj == Null || id in t.oidToObj
    ensures r.Failure? ==> r.error == (if obj == Null then NullObject else ObjectIdInUse(id))
    ensures r.Success? ==> r.value.nextObjectId == Int32Succ(id)
    ensures r.Success? ==> r.value.oidToObj == t.oidToObj[id := obj] && r.value.objToOid == t.objToOid[obj := id]
  {
    if obj == Null then Failure(NullObject) else SaveObject(t, id, obj)
  }

  /** `hostObject(connection|server, object)`: host under the next implicit id. */
  function HostNext(t: ObjectTable, obj: Value): (r: Result<ObjectTable, Error>)
    ensures r.Failure? <==> obj == Null || t.nextObjectId in t.oidToObj
    ensures obj == Null ==> r == Failure(NullObject)
    ensures r.Success? ==> obj in r.value.objToOid && r.value.objToOid[obj] == t.nextObjectId
    ensures r.Success? ==> r.value.nextObjectId == Int32Succ(t.nextObjectId)
    ensures r.Success? && NonNegativeIds(t) && t.nextObjectId < MaxInt32 ==>
              NonNegativeIds(r.value) && r.value.nextObjectId == t.nextObjectId + 1
  {
    HostObject(t, t.nextObjectId, obj)
  }

  /** While every id is below the next implicit id and that id is below the
      largest `int`, implicit hosting of an object succeeds and keeps it so. */
  lemma ImplicitHostingSucceeds(t: ObjectTable, obj: Value)
    requires forall id :: id in t.oidToObj ==> id < t.nextObjectId
    ensures obj != Null ==> HostNext(t, obj).Success?
    ensures obj != Null && IsInt32(t.nextObjectId) && t.nextObjectId < MaxInt32 ==>
              forall id :: id in HostNext(t, obj).value.oidToObj ==> id < HostNext(t, obj).value.nextObjectId
  {
  }

  /** Hosting under the largest `int` wraps the next implicit id to the smallest. */
  lemma ImplicitIdWraps(obj: Value)
    requires obj != Null
    ensures var t := HostNext(ObjectTable(MaxInt32, map[], map[]), obj);
            t.Success? && t.value.nextObjectId == MinInt32 && t.value.objToOid[obj] == MaxInt32
  {
  }

  /** Because the next id becomes `id + 1` rather than the maximum, an
      explicit id below earlier ones makes a later implicit host collide. */
  lemma ExplicitLowIdThenImplicitCollides()
    ensures var t0 := ObjectTable(0, map[], map[]);
            var t1 := HostObject(t0, 5, Local(0)).value;
            var t2 := HostObject(t1, 3, Local(1)).value;
            var t3 := HostNext(t2, Local(2)).value;
            && t3.objToOid[Local(2)] == 4
            && HostNext(t3, Local(3)) == Failure(ObjectIdInUse(5))
  {
  }

  // ---------------------------------------------------------------------
  // Proxy cache

  /** The proxy cached for (c, o) forwards to object `o` over connection `c`. */
  ghost predicate ProxiesOk(p: ProxyCache) {
    forall c, o :: c in p.byConn && o in p.byConn[c] ==>
      p.byConn[c][o].Proxy? && p.byConn[c][o].conn == c && p.byConn[c][o].objectId == o
  }

  /** `q` keeps every proxy `p` caches. */
  ghost predicate ProxiesGrow(p: ProxyCache, q: ProxyCache) {
    forall c, o :: c in p.byConn && o in p.byConn[c] ==>
      c in q.byConn && o in q.byConn[c] && q.byConn[c][o] == p.byConn[c][o]
  }

  /** The proxies cached for one connection. */
  function Cache(p: ProxyCache, conn: ConnId): map<int, Value> {
    if conn in p.byConn then p.byConn[conn] else map[]
  }

  /** `createRemote(connection, objectId, clazz, ...)`: return the cached proxy
      for (connection, objectId), creating and caching one only on a miss. */
  function CreateRemote(p: ProxyCache, conn: ConnId, oid: int, cls: JType): (r: (ProxyCache, Value))
    ensures conn in r.0.byConn && oid in r.0.byConn[conn] && r.0.byConn[conn][oid] == r.1
    ensures oid in Cache(p, conn) ==> r == (p, p.byConn[conn][oid])
    ensures oid !in Cache(p, conn) ==>
              r.1 == Proxy(conn, oid, cls)
              && r.0 == p.(byConn := p.byConn[conn := Cache(p, conn)[oid := r.1]])
    ensures r.0.nextProxyId == p.nextProxyId
    ensures ProxiesGrow(p, r.0)
    ensures ProxiesOk(p) ==> ProxiesOk(r.0)
    ensures ProxiesOk(p) ==> r.1.Proxy? && r.1.conn == conn && r.1.objectId == oid
  {
    var cache := Cache(p, conn);
    if oid in cache then (p, cache[oid])
    else
      var remote := Proxy(conn, oid, cls);
      (p.(byConn := p.byConn[conn := cache[oid := remote]]), remote)
  }

  /** Asking again for the same (connection, id) returns the first proxy, whatever class is asked for. */
  lemma CreateRemoteIdempotent(p: ProxyCache, conn: ConnId, oid: int, c1: JType, c2: JType)
    ensures CreateRemote(CreateRemote(p, conn, oid, c1).0, conn, oid, c2) == CreateRemote(p, conn, oid, c1)
  {
  }

  /** `createRemote(connection, clazz, ...)`: use and advance the next proxy id. */
  function CreateRemoteNext(p: ProxyCache, conn: ConnId, cls: JType): (r: (ProxyCache, Value))
    ensures r.0.nextProxyId == Int32Succ(p.nextProxyId)
    ensures conn in r.0.byConn && p.nextProxyId in r.0.byConn[conn]
    ensures r.0.byConn[conn][p.nextProxyId] == r.1
    ensures p.nextProxyId !in Cache(p, conn) ==> r.1 == Proxy(conn, p.nextProxyId, cls)
  {
    CreateRemote(p.(nextProxyId := Int32Succ(p.nextProxyId)), conn, p.nextProxyId, cls)
  }

  // ---------------------------------------------------------------------
  // Closure substitution

  /** After hosting, wire value `w` stands for `p`: -1 for null, else the id bound to `p`. */
  ghost predicate HostedAs(t: ObjectTable, p: Value, w: Value) {
    && (p == Null ==> w == IntV(-1))
    && (p != Null ==> w.Prim? && w.kind == Int && w.bits in t.oidToObj && t.oidToObj[w.bits] == p
                      && p in t.objToOid && t.objToOid[p] == w.bits)
  }

  /** The id sent for one callback value: -1 for null, the id it is hosted
      under, or a fresh id under which it is hosted now. */
  function HostOne(t: ObjectTable, p: Value): (o: Outcome<ObjectTable, Value>)
    ensures TableGrows(t, o.state)
    ensures TableOk(t) ==> TableOk(o.state)
    ensures NonNegativeIds(t) && t.nextObjectId < MaxInt32 ==>
              NonNegativeIds(o.state) && o.state.nextObjectId <= t.nextObjectId + 1
    ensures o.result.Failure? ==> p != Null && p !in t.objToOid && o.result.error == ObjectIdInUse(t.nextObjectId)
    ensures o.result.Success? && TableOk(t) ==> HostedAs(o.state, p, o.result.value)
  {
    if p == Null then Outcome(t, Success(IntV(-1)))
    else if p in t.objToOid then Outcome(t, Success(IntV(t.objToOid[p])))
    else match HostNext(t, p)
      case Failure(e) => Outcome(t, Failure(e))
      case Success(t1) => Outcome(t1, Success(IntV(t1.objToOid[p])))
  }

  /** The loop of `hostParams` over the callback indices. */
  function HostSlots(t: ObjectTable, params: seq<Value>, idxs: seq<int>): (o: Outcome<ObjectTable, seq<Value>>)
    ensures TableGrows(t, o.state)
    ensures TableOk(t) ==> TableOk(o.state)
    ensures Headroom(t, |idxs|) ==> NonNegativeIds(o.state)
    ensures o.result.Success? ==> |o.result.value| == |params|
    ensures o.result.Success? ==> forall k :: 0 <= k < |idxs| ==> 0 <= idxs[k] < |params|
    ensures o.result.Success? ==>
              forall j :: 0 <= j < |params| && j !in idxs ==> o.result.value[j] == params[j]
    decreases |idxs|
  {
    if idxs == [] then Outcome(t, Success(params))
    else
      var i := idxs[0];
      if !(0 <= i < |params|) then Outcome(t, Failure(IndexOutOfRange(i)))
      else
        var h := HostOne(t, params[i]);
        match h.result
        case Failure(e) => Outcome(h.state, Failure(e))
        case Success(w) => HostSlots(h.state, params[i := w], idxs[1..])
  }

  /** A binding recorded in `t` survives into any table that keeps `t`'s bindings. */
  lemma HostedAsSurvives(t: ObjectTable, u: ObjectTable, p: Value, w: Value)
    requires TableGrows(t, u) && HostedAs(t, p, w)
    ensures HostedAs(u, p, w)
  {
  }

  /** After `hostParams`'s loop every callback slot holds the id its object is hosted under (-1 for null). */
  lemma {:induction false} HostSlotsHostEverySlot(t: ObjectTable, params: seq<Value>, idxs: seq<int>)
    requires TableOk(t) && StrictlyIncreasing(idxs)
    requires HostSlots(t, params, idxs).result.Success?
    ensures var o := HostSlots(t, params, idxs);
            forall k :: 0 <= k < |idxs| ==> HostedAs(o.state, params[idxs[k]], o.result.value[idxs[k]])
    decreases |idxs|
  {
    if idxs != [] {
      var i := idxs[0];
      var h := HostOne(t, params[i]);
      var w := h.result.value;
      var o := HostSlots(h.state, params[i := w], idxs[1..]);
      assert HostSlots(t, params, idxs) == o;
      assert StrictlyIncreasing(idxs[1..]);
      HostSlotsHostEverySlot(h.state, params[i := w], idxs[1..]);
      assert i !in idxs[1..] by {
        forall j | 0 <= j < |idxs[1..]| ensures idxs[1..][j] != i {
          assert idxs[1..][j] == idxs[j + 1];
        }
      }
      assert o.result.value[i] == w;
      HostedAsSurvives(h.state, o.state, params[i], w);
      forall k | 0 < k < |idxs|
        ensures HostedAs(o.state, params[idxs[k]], o.result.value[idxs[k]])
      {
        assert idxs[k] == idxs[1..][k - 1];
        assert params[i := w][idxs[k]] == params[idxs[k]];
      }
    }
  }

  /** `hostParams`: replace every callback argument by its object id, hosting it if new. */
  function HostParams(t: ObjectTable, ie: InvocationEvent): (o: Outcome<ObjectTable, InvocationEvent>)
    ensures TableGrows(t, o.state)
    ensures TableOk(t) ==> TableOk(o.state)
    ensures Headroom(t, |ie.cached.localParamIndices|) ==> NonNegativeIds(o.state)
    ensures o.result.Success? ==> o.result.value == ie.(params := o.result.value.params)
    ensures o.result.Success? ==> |o.result.value.params| == |ie.params|
    ensures o.result.Success? ==> forall j :: 0 <= j < |ie.params| && j !in ie.cached.localParamIndices ==>
              o.result.value.params[j] == ie.params[j]
  {
    var h := HostSlots(t, ie.params, ie.cached.localParamIndices);
    match h.result
    case Failure(e) => Outcome(h.state, Failure(e))
    case Success(ps) => Outcome(h.state, Success(ie.(params := ps)))
  }

  /** After resolution, wire value `w` became `v`: null for -1, else the proxy cached for its id. */
  ghost predicate ResolvedAs(p: ProxyCache, conn: ConnId, w: Value, v: Value) {
    && w.Prim? && w.kind == Int
    && (w.bits == -1 ==> v == Null)
    && (w.bits != -1 ==> v.Proxy? && v.conn == conn && v.objectId == w.bits
                          && conn in p.byConn && w.bits in p.byConn[conn] && p.byConn[conn][w.bits] == v)
  }

  /** The object a received callback id stands for: null for -1, otherwise the
      proxy on `conn` for that id; anything but an `int` fails the cast. */
  function ResolveOne(p: ProxyCache, conn: ConnId, w: Value, cls: JType): (o: Outcome<ProxyCache, Value>)
    ensures ProxiesGrow(p, o.state)
    ensures ProxiesOk(p) ==> ProxiesOk(o.state)
    ensures o.result.Success? <==> w.Prim? && w.kind == Int
    ensures o.result.Failure? ==> o.result.error == BadCast
    ensures o.result.Success? && ProxiesOk(p) ==> ResolvedAs(o.state, conn, w, o.result.value)
  {
    match w
    case Prim(Int, id) =>
      if id == -1 then Outcome(p, Success(Null))
      else
        var (p1, remote) := CreateRemote(p, conn, id, cls);
        Outcome(p1, Success(remote))
    case _ => Outcome(p, Failure(BadCast))
  }

  /** Every listed slot is in range of both sequences and holds an int. */
  ghost predicate IntSlots(params: seq<Value>, idxs: seq<int>, types: seq<JType>) {
    forall k :: 0 <= k < |idxs| ==>
      0 <= idxs[k] < |params| && idxs[k] < |types| && params[idxs[k]].Prim? && params[idxs[k]].kind == Int
  }

  /** The loop of `createRemoteParams` over the callback indices. */
  function ProxySlots(p: ProxyCache, conn: ConnId, params: seq<Value>, idxs: seq<int>, types: seq<JType>)
    : (o: Outcome<ProxyCache, seq<Value>>)
    ensures ProxiesGrow(p, o.state)
    ensures ProxiesOk(p) ==> ProxiesOk(o.state)
    ensures IntSlots(params, idxs, types) && StrictlyIncreasing(idxs) ==> o.result.Success?
    ensures o.result.Success? ==> |o.result.value| == |params|
    ensures o.result.Success? ==>
              forall j :: 0 <= j < |params| && j !in idxs ==> o.result.value[j] == params[j]
    decreases |idxs|
  {
    if idxs == [] then Outcome(p, Success(params))
    else
      var i := idxs[0];
      if !(0 <= i < |params| && i < |types|) then Outcome(p, Failure(IndexOutOfRange(i)))
      else
        var c := ResolveOne(p, conn, params[i], types[i]);
        match c.result
        case Failure(e) => Outcome(c.state, Failure(e))
        case Success(v) => ProxySlots(c.state, conn, params[i := v], idxs[1..], types)
  }

  /** A resolution recorded in `p` survives into any cache that keeps `p`'s proxies. */
  lemma ResolvedAsSurvives(p: ProxyCache, q: ProxyCache, conn: ConnId, w: Value, v: Value)
    requires ProxiesGrow(p, q) && ResolvedAs(p, conn, w, v)
    ensures ResolvedAs(q, conn, w, v)
  {
  }

  /** After `createRemoteParams`'s loop every callback slot held an id and
      now holds null (for -1) or the proxy cached for that id on `conn`. */
  lemma {:induction false} ProxySlotsResolveEverySlot(p: ProxyCache, conn: ConnId, params: seq<Value>,
                                                     idxs: seq<int>, types: seq<JType>)
    requires ProxiesOk(p) && StrictlyIncreasing(idxs)
    requires ProxySlots(p, conn, params, idxs, types).result.Success?
    ensures IntSlots(params, idxs, types)
    ensures var o := ProxySlots(p, conn, params, idxs, types);
            forall k :: 0 <= k < |idxs| ==> ResolvedAs(o.state, conn, params[idxs[k]], o.result.value[idxs[k]])
    decreases |idxs|
  {
    if idxs != [] {
      var i := idxs[0];
      var c := ResolveOne(p, conn, params[i], types[i]);
      var v := c.result.value;
      var o := ProxySlots(c.state, conn, params[i := v], idxs[1..], types);
      assert ProxySlots(p, conn, params, idxs, types) == o;
      assert StrictlyIncreasing(idxs[1..]);
      ProxySlotsResolveEverySlot(c.state, conn, params[i := v], idxs[1..], types);
      forall k | 0 <= k < |idxs|
        ensures 0 <= idxs[k] < |params| && idxs[k] < |types| && params[idxs[k]].Prim? && params[idxs[k]].kind == Int
        ensures ResolvedAs(o.state, conn, params[idxs[k]], o.result.value[idxs[k]])
      {
        if k == 0 {
          assert i !in idxs[1..] by {
            forall j | 0 <= j < |idxs[1..]| ensures idxs[1..][j] != i {
              assert idxs[1..][j] == idxs[j + 1];
            }
          }
          ResolvedAsSurvives(c.state, o.state, conn, params[i], v);
        } else {
          assert idxs[k] == idxs[1..][k - 1];
        }
      }
    }
  }

  /** `createRemoteParams`: replace every callback id by null (-1) or a proxy on `conn`. */
  function CreateRemoteParams(p: ProxyCache, conn: ConnId, ie: InvocationEvent): (o: Outcome<ProxyCache, InvocationEvent>)
    ensures ProxiesGrow(p, o.state)
    ensures ProxiesOk(p) ==> ProxiesOk(o.state)
    ensures o.result.Success? ==> o.result.value == ie.(params := o.result.value.params)
    ensures o.result.Success? ==> |o.result.value.params| == |ie.params|
    ensures o.result.Success? ==> forall j :: 0 <= j < |ie.params| && j !in ie.cached.localParamIndices ==>
              o.result.value.params[j] == ie.params[j]
  {
    var c := ProxySlots(p, conn, ie.params, ie.cached.localParamIndices, ie.cached.argClasses);
    match c.result
    case Failure(e) => Outcome(c.state, Failure(e))
    case Success(ps) => Outcome(c.state, Success(ie.(params := ps)))
  }

  /** `hostResult`: a closure result travels as its object id (-1 for null). */
  function HostResult(t: ObjectTable, ee: ExecutionEvent): (o: Outcome<ObjectTable, ExecutionEvent>)
    ensures TableGrows(t, o.state)
    ensures TableOk(t) ==> TableOk(o.state)
    ensures NonNegativeIds(t) && t.nextObjectId < MaxInt32 ==> NonNegativeIds(o.state)
    ensures !ee.cached.isResLocal ==> o == Outcome(t, Success(ee))
    ensures o.result.Success? ==> o.result.value == ee.(result := o.result.value.result)
    ensures o.result.Success? && ee.cached.isResLocal && TableOk(t) ==>
              HostedAs(o.state, ee.result, o.result.value.result)
  {
    if !ee.cached.isResLocal then Outcome(t, Success(ee))
    else
      var h := HostOne(t, ee.result);
      match h.result
      case Failure(e) => Outcome(h.state, Failure(e))
      case Success(w) => Outcome(h.state, Success(ee.(result := w)))
  }

  /** `createRemoteResult`: a closure result id becomes null (-1) or a proxy on `conn`. */
  function CreateRemoteResult(p: ProxyCache, conn: ConnId, ee: ExecutionEvent): (o: Outcome<ProxyCache, ExecutionEvent>)
    ensures ProxiesGrow(p, o.state)
    ensures ProxiesOk(p) ==> ProxiesOk(o.state)
    ensures !ee.cached.isResLocal ==> o == Outcome(p, Success(ee))
    ensures ee.cached.isResLocal ==> (o.result.Success? <==> ee.result.Prim? && ee.result.kind == Int)
    ensures o.result.Success? ==> o.result.value == ee.(result := o.result.value.result)
    ensures o.result.Success? && ee.cached.isResLocal && ProxiesOk(p) ==>
              ResolvedAs(o.state, conn, ee.result, o.result.value.result)
  {
    if !ee.cached.isResLocal then Outcome(p, Success(ee))
    else
      var c := ResolveOne(p, conn, ee.result, ee.cached.resClass);
      match c.result
      case Failure(e) => Outcome(c.state, Failure(e))
      case Success(v) => Outcome(c.state, Success(ee.(result := v)))
  }

  /** On the receiving side `v` stands for the sender's `p`: null for null,
      otherwise a proxy on `conn` for the id `p` is hosted under. */
  ghost predicate StandsFor(t: ObjectTable, conn: ConnId, p: Value, v: Value) {
    && (p == Null <==> v == Null)
    && (p != Null ==> v.Proxy? && v.conn == conn && v.objectId in t.oidToObj && t.oidToObj[v.objectId] == p)
  }

  /** Hosting then resolving: the -1 sentinel and hosted ids never collide
      while ids are non-negative and the next id does not wrap, so every
      callback argument arrives as null exactly when it was null and
      otherwise as a proxy for its hosted object. */
  lemma CallbackRoundTrip(t: ObjectTable, p: ProxyCache, conn: ConnId,
                          params: seq<Value>, idxs: seq<int>, types: seq<JType>)
    requires TableOk(t) && Headroom(t, |idxs|) && ProxiesOk(p) && StrictlyIncreasing(idxs)
    requires forall k :: 0 <= k < |idxs| ==> idxs[k] < |types|
    requires HostSlots(t, params, idxs).result.Success?
    ensures var h := HostSlots(t, params, idxs);
            var c := ProxySlots(p, conn, h.result.value, idxs, types);
            && c.result.Success?
            && |c.result.value| == |params|
            && (forall j :: 0 <= j < |params| && j !in idxs ==> c.result.value[j] == params[j])
            && (forall k :: 0 <= k < |idxs| ==> StandsFor(h.state, conn, params[idxs[k]], c.result.value[idxs[k]]))
  {
    var h := HostSlots(t, params, idxs);
    var ws := h.result.value;
    HostSlotsHostEverySlot(t, params, idxs);
    assert IntSlots(ws, idxs, types);
    ProxySlotsResolveEverySlot(p, conn, ws, idxs, types);
    var c := ProxySlots(p, conn, ws, idxs, types);
    forall k | 0 <= k < |idxs|
      ensures StandsFor(h.state, conn, params[idxs[k]], c.result.value[idxs[k]])
    {
      var w := ws[idxs[k]];
      assert HostedAs(h.state, params[idxs[k]], w);
      assert ResolvedAs(c.state, conn, w, c.result.value[idxs[k]]);
      assert params[idxs[k]] != Null ==> w.bits >= 0;
    }
  }

  /** The same round trip for a closure result. */
  lemma ClosureResultRoundTrip(t: ObjectTable, p: ProxyCache, conn: ConnId, ee: ExecutionEvent)
    requires TableOk(t) && NonNegativeIds(t) && t.nextObjectId < MaxInt32 && ProxiesOk(p)
    requires ee.cached.isResLocal
    requires HostResult(t, ee).result.Success?
    ensures var h := HostResult(t, ee);
            var c := CreateRemoteResult(p, conn, h.result.value);
            && c.result.Success?
            && c.result.value == ee.(result := c.result.value.result)
            && StandsFor(h.state, conn, ee.result, c.result.value.result)
  {
  }

  /** Once an object is hosted under -1 (an explicit id, or the next id
      wrapped past the largest `int`), it is sent as the null sentinel and
      the receiver gets null in its place. */
  lemma HostedUnderMinusOneArrivesAsNull(p: ProxyCache, conn: ConnId, cls: JType)
    ensures var h := HostOne(ObjectTable(-1, map[], map[]), Local(0));
            && h.result == Success(IntV(-1))
            && HostedAs(h.state, Local(0), IntV(-1))
            && ResolveOne(p, conn, IntV(-1), cls).result == Success(Null)
  {
  }
}

=== FILE: registry.dfy ===
/**
 * Method registration of the invocation space (`registerRemotable` and
 * `registerMethods`): every eligible method of a remotable class and of its
 * super-interfaces gets the next method id. The descriptor stored under an
 * id is a function of the id and the method, so the registry keeps the
 * method and builds the descriptor on lookup.
 */
module Registration {
  import opened Wrappers
  import opened Types
  import opened Rmi
  import opened CachedMethods

  /** A remotable class: `getMethods()` and `getInterfaces()`. */
  datatype ClassInfo = ClassInfo(name: string, methods: seq<MethodSig>, interfaces: seq<ClassInfo>)

  /** Registered classes, the next method id, and both directions of the id map. */
  datatype Registry = Registry(
    registered: set<string>,          // clsReg
    nextMethodId: int,
    midToMet: map<int, MethodSig>,
    metToMid: map<MethodSig, int>)

  const EmptyRegistry: Registry := Registry({}, 0, map[], map[])

  /** `midToCMet`: the descriptor under every registered id. */
  function Table(g: Registry): (t: MethodTable)
    ensures forall id :: id in t <==> id in g.midToMet
    ensures forall id :: id in t ==> t[id].id == id && t[id].sig == g.midToMet[id] && WellFormed(t[id])
  {
    map id | id in g.midToMet :: Build(id, g.midToMet[id])
  }

  /** `registerMethods` gives an id to public, non-static, non-local methods. */
  predicate Registrable(m: MethodSig) {
    m.isPublic && !m.isStatic && !GetRmi(m.annotations).local
  }

  /** The methods `registerMethods` visits: each class's `getMethods()`,
      then its super-interfaces, depth first, each list in the order
      `getMethods()` and `getInterfaces()` return it. */
  function Visit(cs: seq<ClassInfo>): seq<MethodSig>
    decreases cs
  {
    if cs == [] then [] else cs[0].methods + Visit(cs[0].interfaces) + Visit(cs[1..])
  }

  /** The registrable methods of `ms`, in order. */
  function Registrables(ms: seq<MethodSig>): (r: seq<MethodSig>)
    ensures |r| <= |ms|
    ensures forall k :: 0 <= k < |r| ==> Registrable(r[k])
  {
    if ms == [] then []
    else if Registrable(ms[0]) then [ms[0]] + Registrables(ms[1..])
    else Registrables(ms[1..])
  }

  /** Ids are below the next id, and every method's id maps back to it. */
  ghost predicate RegistryOk(g: Registry) {
    && 0 <= g.nextMethodId
    && (forall id :: id in g.midToMet ==> 0 <= id < g.nextMethodId)
    && (forall m :: m in g.metToMid ==> g.metToMid[m] in g.midToMet && g.midToMet[g.metToMid[m]] == m)
  }

  /** One step of the registration loop: a registrable method gets the next id. */
  function RegisterOne(g: Registry, m: MethodSig): (r: Registry)
    ensures r.registered == g.registered
    ensures !Registrable(m) ==> r == g
    ensures Registrable(m) ==>
              && r.nextMethodId == g.nextMethodId + 1
              && g.nextMethodId in r.midToMet && r.midToMet[g.nextMethodId] == m
              && m in r.metToMid && r.metToMid[m] == g.nextMethodId
    ensures forall id :: id in g.midToMet && id < g.nextMethodId ==>
              id in r.midToMet && r.midToMet[id] == g.midToMet[id]
    ensures forall m' :: m' in g.metToMid ==> m' in r.metToMid
    ensures RegistryOk(g) ==> RegistryOk(r)
  {
    if Registrable(m) then
      g.(nextMethodId := g.nextMethodId + 1,
         midToMet := g.midToMet[g.nextMethodId := m],
         metToMid := g.metToMid[m := g.nextMethodId])
    else g
  }

  /** The registration loop over a list of visited methods. */
  function RegisterList(g: Registry, ms: seq<MethodSig>): (r: Registry)
    ensures r.registered == g.registered
    ensures r.nextMethodId == g.nextMethodId + |Registrables(ms)|
    ensures forall id :: id in g.midToMet && id < g.nextMethodId ==>
              id in r.midToMet && r.midToMet[id] == g.midToMet[id]
    ensures forall m :: m in ms && Registrable(m) ==> m in r.metToMid
    ensures forall m :: m in g.metToMid ==> m in r.metToMid
    ensures RegistryOk(g) ==> RegistryOk(r)
    decreases |ms|
  {
    if ms == [] then g
    else RegisterList(RegisterOne(g, ms[0]), ms[1..])
  }

  /** The k-th registrable method of the list gets id `nextMethodId + k`. */
  lemma {:induction false} RegisterListAssignsInOrder(g: Registry, ms: seq<MethodSig>, k: int)
    requires 0 <= k < |Registrables(ms)|
    ensures g.nextMethodId + k in RegisterList(g, ms).midToMet
    ensures RegisterList(g, ms).midToMet[g.nextMethodId + k] == Registrables(ms)[k]
    decreases |ms|
  {
    assert ms != [];
    var g1 := RegisterOne(g, ms[0]);
    assert RegisterList(g, ms) == RegisterList(g1, ms[1..]);
    if !Registrable(ms[0]) {
      RegisterListAssignsInOrder(g1, ms[1..], k);
    } else if k == 0 {
      assert g.nextMethodId in g1.midToMet && g.nextMethodId < g1.nextMethodId;
    } else {
      assert Registrables(ms)[k] == Registrables(ms[1..])[k - 1];
      RegisterListAssignsInOrder(g1, ms[1..], k - 1);
    }
  }

  /** `registerRemotable`: a class is registered once; its methods get the next ids. */
  function RegisterRemotable(g: Registry, c: ClassInfo): (r: Result<Registry, Error>)
    ensures r.Failure? <==> c.name in g.registered
    ensures r.Failure? ==> r.error == AlreadyRegistered(c.name)
    ensures r.Success? ==> r.value.registered == g.registered + {c.name}
    ensures r.Success? ==> r.value.nextMethodId == g.nextMethodId + |Registrables(Visit([c]))|
    ensures r.Success? ==> forall m :: m in Visit([c]) && Registrable(m) ==> m in r.value.metToMid
    ensures r.Success? && RegistryOk(g) ==> RegistryOk(r.value)
  {
    if c.name in g.registered then Failure(AlreadyRegistered(c.name))
    else Success(RegisterList(g.(registered := g.registered + {c.name}), Visit([c])))
  }

  /** The k-th registrable method of the class, in visiting order, is
      registered under the next id plus k. */
  lemma RegisterRemotableAssigns(g: Registry, c: ClassInfo, k: int)
    requires c.name !in g.registered
    requires 0 <= k < |Registrables(Visit([c]))|
    ensures g.nextMethodId + k in RegisterRemotable(g, c).value.midToMet
    ensures RegisterRemotable(g, c).value.midToMet[g.nextMethodId + k] == Registrables(Visit([c]))[k]
  {
    var ms := Visit([c]);
    RegisterListAssignsInOrder(g.(registered := g.registered + {c.name}), ms, k);
  }

  /**
   * A sub-interface's `getMethods()` already lists the methods it inherits,
   * and the super-interface is then visited too, so an inherited method is
   * registered twice: both ids map to it, and the method maps to the later.
   */
  lemma InheritedMethodGetsTwoIds(g: Registry, m: MethodSig, sub: string, super: string)
    requires sub !in g.registered && Registrable(m)
    ensures var r := RegisterRemotable(g, ClassInfo(sub, [m], [ClassInfo(super, [m], [])]));
            && r.Success?
            && r.value.nextMethodId == g.nextMethodId + 2
            && g.nextMethodId in r.value.midToMet && r.value.midToMet[g.nextMethodId] == m
            && g.nextMethodId + 1 in r.value.midToMet && r.value.midToMet[g.nextMethodId + 1] == m
            && m in r.value.metToMid && r.value.metToMid[m] == g.nextMethodId + 1
            && (RegistryOk(g) ==> RegistryOk(r.value))
  {
    var c := ClassInfo(sub, [m], [ClassInfo(super, [m], [])]);
    assert Visit([c]) == [m, m] by {
      assert Visit([c][1..]) == [];
      assert Visit(c.interfaces) == [m] + Visit([]) + Visit([]);
    }
    var g0 := g.(registered := g.registered + {sub});
    assert RegisterList(g0, [m, m]) == RegisterList(RegisterOne(RegisterOne(g0, m), m), []);
  }
}

=== FILE: result_store.dfy ===
/**
 * The transaction result store (`MultiResultLock`): a map from
 * transaction id to a future that is either still pending or completed.
 * Blocking is replaced by events: a waiter resumes either because its
 * entry has completed or because its wait bound has elapsed.
 */
module ResultStore {

  datatype Entry<T> = Pending | Done(value: T)

  type Store<T> = map<int, Entry<T>>

  /** The wait bound hard-wired in `read(transactionId)`. */
  const FixedWaitMillis: int := 3000

  /** `write`: complete a pending entry, keep a completed one, or create a completed one. */
  function Write<T>(st: Store<T>, id: int, v: T): (r: Store<T>)
    ensures id in r && r[id].Done?
    ensures id !in st ==> r[id] == Done(v)
    ensures id in st && st[id].Pending? ==> r[id] == Done(v)
    ensures id in st && st[id].Done? ==> r == st
    ensures forall k :: k != id ==> (k in r <==> k in st)
    ensures forall k :: k in st && k != id ==> r[k] == st[k]
  {
    if id in st then
      match st[id]
      case Pending => st[id := Done(v)]
      case Done(_) => st
    else st[id := Done(v)]
  }

  /** The first part of `read`: reuse the entry for `id`, or register a pending one. */
  function BeginRead<T>(st: Store<T>, id: int): (r: Store<T>)
    ensures id in r
    ensures id in st ==> r == st
    ensures id !in st ==> r == st[id := Pending]
  {
    if id in st then st else st[id := Pending]
  }

  /** How a reader resumes. */
  datatype Wake<T> =
    | Got(value: T)
    | StillWaiting
    | TimedOut(transactionId: int)   // "Transaction ID <id>" raised to the reader

  /**
   * `read` as seen by a reader that has waited `elapsed` ms with wait bound
   * `bound`: a completed entry is returned and left in the map; a pending
   * entry past the bound is removed and the reader fails with the id.
   */
  function Read<T>(st: Store<T>, id: int, elapsed: nat, bound: int): (r: (Store<T>, Wake<T>))
    ensures id in st && st[id].Done? ==> r == (st, Got(st[id].value))
    ensures r.1.Got? ==> id in st && st[id] == Done(r.1.value) && r.0 == st
    ensures r.1.TimedOut? <==> (id !in st || st[id].Pending?) && elapsed >= bound
    ensures r.1.TimedOut? ==> r.1.transactionId == id && r.0 == st - {id}
    ensures r.1.StillWaiting? ==> r.0 == BeginRead(st, id) && r.0[id].Pending?
  {
    var st1 := BeginRead(st, id);
    match st1[id]
    case Done(v) => (st1, Got(v))
    case Pending => if elapsed >= bound then (st1 - {id}, TimedOut(id)) else (st1, StillWaiting)
  }

  /** `read(transactionId)` exactly as the class declares it: the bound is 3 s. */
  function ReadFixed<T>(st: Store<T>, id: int, elapsed: nat): (r: (Store<T>, Wake<T>))
    ensures r.1.TimedOut? <==> (id !in st || st[id].Pending?) && elapsed >= 3000
  {
    Read(st, id, elapsed, FixedWaitMillis)
  }

  /** Result before waiter: the reader gets the value at once, however small the bound. */
  lemma WriteThenRead<T>(st: Store<T>, id: int, v: T, elapsed: nat, bound: int)
    requires id !in st || st[id].Pending?
    ensures Read(Write(st, id, v), id, elapsed, bound).1 == Got(v)
  {
  }

  /** Waiter before result: a reader that registered and then sees the write gets it. */
  lemma ReadThenWriteThenRead<T>(st: Store<T>, id: int, v: T, e1: nat, e2: nat, bound: int)
    requires id !in st
    requires e1 < bound
    ensures Read(st, id, e1, bound).1.StillWaiting?
    ensures Read(Write(Read(st, id, e1, bound).0, id, v), id, e2, bound).1 == Got(v)
  {
  }

  /** The first write wins; later writes to the same id have no effect. */
  lemma FirstWriteWins<T>(st: Store<T>, id: int, a: T, b: T)
    requires id !in st || st[id].Pending?
    ensures Write(Write(st, id, a), id, b) == Write(st, id, a)
    ensures Write(Write(st, id, a), id, b)[id] == Done(a)
  {
  }

  /** A timed-out waiter leaves no trace: a late result then creates a fresh completed entry. */
  lemma TimeoutThenLateWrite<T>(st: Store<T>, id: int, v: T, elapsed: nat, bound: int)
    requires id !in st
    requires elapsed >= bound
    ensures Read(st, id, elapsed, bound) == (st, TimedOut(id))
    ensures Write(Read(st, id, elapsed, bound).0, id, v) == st[id := Done(v)]
  {
    assert st[id := Pending] - {id} == st;
  }
}

=== FILE: rmi.dfy ===
/**
 * Calling-convention policy of a remote method (`RMI` and `RMI.Helper`).
 * Java annotations become boolean fields; `GetRmi` merges them into one
 * `Policy`, and the parameter predicates decide which arguments are
 * callback-style closures.
 */
module Rmi {
  import opened Wrappers
  import opened Types

  const DefaultResponseTimeout: int := 3000

  /** How an error raised by a remotely executed method reaches the caller. */
  datatype Transmission =
    | LocalOnly   // rethrown on the executing side only
    | ToString    // the formatted stack trace travels as text
    | GetMessage  // the error's message travels as text
    | Whole       // any other mode: the error object itself (unsupported)

  /** The resolved calling convention of one method. */
  datatype Policy = Policy(
    local: bool,
    udp: bool,
    nonBlocking: bool,
    noReturns: bool,
    responseTimeout: int,
    transmission: Transmission,
    remoteToString: bool,
    remoteHashCode: bool,
    closed: bool)

  /** The attribute values of an `@RMI(...)` annotation. */
  datatype RmiAnnotation = RmiAnnotation(
    local: bool,
    udp: bool,
    nonBlocking: bool,
    noReturns: bool,
    responseTimeout: int,
    remoteToString: bool,
    remoteHashCode: bool,
    closed: bool)

  /** The annotations present on one method. */
  datatype MethodAnnotations = MethodAnnotations(
    rmi: Option<RmiAnnotation>,            // @RMI(...)
    local: bool,                           // @RMI.Local
    udp: bool,                             // @RMI.UDP
    nonBlocking: bool,                     // @RMI.NonBlocking
    noReturns: bool,                       // @RMI.NoReturns
    responseTimeout: Option<int>,          // @RMI.ResponseTimeout(value)
    transmit: Option<Transmission>,        // @RMI.TransmitExceptions(mode)
    closure: bool)                         // @RMI.Closure (result is a remote reference)

  const NoAnnotations: MethodAnnotations :=
    MethodAnnotations(None, false, false, false, false, None, None, false)

  /** The policy of a method that carries no annotation at all. */
  const DefaultPolicy: Policy :=
    Policy(false, false, false, false, DefaultResponseTimeout, LocalOnly, false, false, false)

  /** The `@RMI` attribute values a method without `@RMI` is treated as having. */
  const DefaultRmiAnnotation: RmiAnnotation :=
    RmiAnnotation(false, false, false, false, DefaultResponseTimeout, false, false, false)

  /** The `@RMI` on the method, or the defaults. */
  function DeclaredRmi(a: MethodAnnotations): RmiAnnotation {
    if a.rmi.Some? then a.rmi.value else DefaultRmiAnnotation
  }

  /** `RMI.Helper.getRMI`: start from the defaults, take `@RMI`'s values,
      OR the marker annotations onto the flags, let `@ResponseTimeout` win. */
  function GetRmi(a: MethodAnnotations): (p: Policy)
    ensures a.rmi.None? && !a.local ==> !p.local
    ensures a.rmi.Some? ==> p.closed == a.rmi.value.closed
    ensures a.rmi.Some? ==> p.remoteToString == a.rmi.value.remoteToString
                            && p.remoteHashCode == a.rmi.value.remoteHashCode
    ensures a.rmi.None? ==> !p.closed && !p.remoteToString && !p.remoteHashCode
    ensures a.responseTimeout.Some? ==> p.responseTimeout == a.responseTimeout.value
    ensures a.transmit.Some? ==> p.transmission == a.transmit.value
    ensures a.transmit.None? ==> p.transmission == LocalOnly
  {
    Policy(
      DeclaredRmi(a).local || a.local,
      DeclaredRmi(a).udp || a.udp,
      DeclaredRmi(a).nonBlocking || a.nonBlocking,
      DeclaredRmi(a).noReturns || a.noReturns,
      if a.responseTimeout.Some? then a.responseTimeout.value else DeclaredRmi(a).responseTimeout,
      if a.transmit.Some? then a.transmit.value else LocalOnly,
      DeclaredRmi(a).remoteToString,
      DeclaredRmi(a).remoteHashCode,
      DeclaredRmi(a).closed)
  }

  /** With no annotation the policy is all-false with the 3000 ms timeout. */
  lemma NoAnnotationsGiveDefault()
    ensures GetRmi(NoAnnotations) == DefaultPolicy
  {
  }

  /** `a2` carries every marker `a1` carries (and possibly more); `@RMI` is shared. */
  ghost predicate MoreMarkers(a1: MethodAnnotations, a2: MethodAnnotations) {
    && a1.rmi == a2.rmi
    && (a1.local ==> a2.local)
    && (a1.udp ==> a2.udp)
    && (a1.nonBlocking ==> a2.nonBlocking)
    && (a1.noReturns ==> a2.noReturns)
  }

  /** Markers are OR-ed on: adding one can switch a flag on but never off,
      and a flag set by `@RMI` stays set whatever markers are present. */
  lemma MarkersOnlyRaiseFlags(a1: MethodAnnotations, a2: MethodAnnotations)
    requires MoreMarkers(a1, a2)
    ensures GetRmi(a1).local ==> GetRmi(a2).local
    ensures GetRmi(a1).udp ==> GetRmi(a2).udp
    ensures GetRmi(a1).nonBlocking ==> GetRmi(a2).nonBlocking
    ensures GetRmi(a1).noReturns ==> GetRmi(a2).noReturns
    ensures a1.rmi.Some? && a1.rmi.value.udp ==> GetRmi(a2).udp
    ensures a1.rmi.Some? && a1.rmi.value.nonBlocking ==> GetRmi(a2).nonBlocking
  {
  }

  /** Each flag is the disjunction of its `@RMI` attribute and its marker. */
  lemma FlagsAreDisjunctions(a: MethodAnnotations)
    ensures GetRmi(a).local <==> a.local || (a.rmi.Some? && a.rmi.value.local)
    ensures GetRmi(a).udp <==> a.udp || (a.rmi.Some? && a.rmi.value.udp)
    ensures GetRmi(a).nonBlocking <==> a.nonBlocking || (a.rmi.Some? && a.rmi.value.nonBlocking)
    ensures GetRmi(a).noReturns <==> a.noReturns || (a.rmi.Some? && a.rmi.value.noReturns)
  {
  }

  /** Timeout precedence: `@ResponseTimeout`, then `@RMI.responseTimeout`, then 3000. */
  lemma TimeoutPrecedence(a: MethodAnnotations)
    ensures a.responseTimeout.Some? ==> GetRmi(a).responseTimeout == a.responseTimeout.value
    ensures a.responseTimeout.None? && a.rmi.Some? ==> GetRmi(a).responseTimeout == a.rmi.value.responseTimeout
    ensures a.responseTimeout.None? && a.rmi.None? ==> GetRmi(a).responseTimeout == DefaultResponseTimeout
  {
  }

  /** Each output field depends only on its own inputs. */
  lemma FieldsAreIndependent(a1: MethodAnnotations, a2: MethodAnnotations)
    ensures (a1.udp == a2.udp && (a1.rmi.Some? && a1.rmi.value.udp) == (a2.rmi.Some? && a2.rmi.value.udp))
            ==> GetRmi(a1).udp == GetRmi(a2).udp
    ensures (a1.nonBlocking == a2.nonBlocking
             && (a1.rmi.Some? && a1.rmi.value.nonBlocking) == (a2.rmi.Some? && a2.rmi.value.nonBlocking))
            ==> GetRmi(a1).nonBlocking == GetRmi(a2).nonBlocking
    ensures (a1.responseTimeout == a2.responseTimeout
             && (a1.rmi.Some? ==> a2.rmi.Some? && a1.rmi.value.responseTimeout == a2.rmi.value.responseTimeout)
             && (a2.rmi.Some? ==> a1.rmi.Some?))
            ==> GetRmi(a1).responseTimeout == GetRmi(a2).responseTimeout
  {
  }

  /** `isRMIAnnotationPresent`: `@RMI` or `@Local` is on the method. */
  predicate IsRmiAnnotationPresent(a: MethodAnnotations) {
    a.rmi.Some? || a.local
  }

  /** Whether `@RMI` or `@Local` decides the presence test: no other marker,
      and none of `@RMI`'s attribute values, changes the answer. A method
      `getRMI` calls local always passes it. */
  lemma RmiAnnotationPresence(a1: MethodAnnotations, a2: MethodAnnotations)
    requires a1.rmi.Some? == a2.rmi.Some? && a1.local == a2.local
    ensures IsRmiAnnotationPresent(a1) == IsRmiAnnotationPresent(a2)
    ensures IsRmiAnnotationPresent(a1) <==> a1.rmi.Some? || a1.local
    ensures GetRmi(a1).local ==> IsRmiAnnotationPresent(a1)
  {
  }

  /** A method parameter: its declared class and its own annotations. */
  datatype Param = Param(ty: JType, local: bool, closure: bool)

  /** `isValidClosure`: an interface type, marked functional, and `@Closure` on the parameter. */
  predicate IsValidClosure(p: Param) {
    IsInterface(p.ty) && IsFunctional(p.ty) && p.closure
  }

  /** `isLocal(Parameter)`: the parameter is passed as a callback. */
  predicate IsLocalParam(p: Param) {
    p.local || IsValidClosure(p)
  }

  /** Without `@Local`, a parameter is callback-style exactly when all three
      closure conditions hold; dropping any one of them turns it off. */
  lemma ClosureNeedsAllThree(p: Param)
    requires !p.local
    ensures IsLocalParam(p) <==> IsInterface(p.ty) && IsFunctional(p.ty) && p.closure
    ensures !p.closure ==> !IsLocalParam(p)
    ensures !IsInterface(p.ty) ==> !IsLocalParam(p)
    ensures !IsFunctional(p.ty) ==> !IsLocalParam(p)
  {
  }
}

=== FILE: tcp_connection.dfy ===
/**
 * Length-prefixed framing of a TCP connection (`TcpConnection.readObject`
 * and `send`) and its two timing predicates. The socket is a queue of
 * bytes the peer has sent and this side has not read yet; a read moves as
 * many of them as fit into the read buffer. The serializer is a parameter.
 * Lengths are written as the default serialization writes them: a 4-byte
 * big-endian two's-complement `int`.
 */
module TcpFraming {
  import opened Wrappers
  import opened Types

  type Byte = x: int | 0 <= x < 256

  const LengthLength: nat := 4
  const DefaultKeepAliveMillis: int := 8000
  const DefaultTimeoutMillis: int := 12000

  // ---------------------------------------------------------------------
  // Length prefix

  /** `writeLength`: the low 32 bits of `n`, most significant byte first. */
  function EncodeLength(n: int): (b: seq<Byte>)
    ensures |b| == LengthLength
  {
    var u := n % 0x1_0000_0000;
    var low3 := u % 0x100_0000;
    var low2 := low3 % 0x1_0000;
    [u / 0x100_0000, low3 / 0x1_0000, low2 / 0x100, low2 % 0x100]
  }

  /** `readLength`: four bytes read back as a signed 32-bit value. */
  function DecodeLength(b: seq<Byte>): (n: int)
    requires |b| >= LengthLength
    ensures IsInt32(n)
    ensures n < 0 <==> b[0] >= 0x80
  {
    var u := Unsigned(b);
    if u >= 0x8000_0000 then u - 0x1_0000_0000 else u
  }

  /** The first four bytes as an unsigned big-endian number. */
  function Unsigned(b: seq<Byte>): (u: int)
    requires |b| >= LengthLength
    ensures 0 <= u < 0x1_0000_0000
    ensures u >= 0x8000_0000 <==> b[0] >= 0x80
  {
    (b[0] as int) * 0x100_0000 + (b[1] as int) * 0x1_0000 + (b[2] as int) * 0x100 + (b[3] as int)
  }

  /** Every 32-bit length survives the prefix. */
  lemma LengthRoundTrip(n: int)
    requires IsInt32(n)
    ensures DecodeLength(EncodeLength(n)) == n
  {
    var u := n % 0x1_0000_0000;
    var low3 := u % 0x100_0000;
    var low2 := low3 % 0x1_0000;
    assert u == (u / 0x100_0000) * 0x100_0000 + low3;
    assert low3 == (low3 / 0x1_0000) * 0x1_0000 + low2;
    assert low2 == (low2 / 0x100) * 0x100 + low2 % 0x100;
    assert Unsigned(EncodeLength(n)) == u;
  }

  // ---------------------------------------------------------------------
  // Reading

  /** Bytes the peer has sent that are not in the read buffer yet; `endOfStream`
      once the peer has closed its side. */
  datatype Socket = Socket(incoming: seq<Byte>, endOfStream: bool)

  /** The read side: `readBuffer`'s unread bytes and capacity, the pending
      frame length (0 while a length is expected), and `lastReadTime`. */
  datatype Reader = Reader(buffer: seq<Byte>, capacity: nat, currentObjectLength: int, lastReadTime: int)

  /** The buffer fits, a length prefix fits, and a pending length is a valid one. */
  predicate ReaderOk(r: Reader) {
    && LengthLength <= r.capacity
    && |r.buffer| <= r.capacity
    && 0 <= r.currentObjectLength <= r.capacity
  }

  /** A new connection's reader. */
  function NewReader(capacity: nat, now: int): (r: Reader)
    requires LengthLength <= capacity
    ensures ReaderOk(r) && r.buffer == [] && r.currentObjectLength == 0
  {
    Reader([], capacity, 0, now)
  }

  /** The peer sends more bytes. */
  function Arrive(k: Socket, bytes: seq<Byte>): Socket {
    k.(incoming := k.incoming + bytes)
  }

  /** Move the first `n` waiting bytes behind the buffered ones. */
  function Transfer(buffer: seq<Byte>, incoming: seq<Byte>, n: nat): (p: (seq<Byte>, seq<Byte>))
    requires n <= |incoming|
    ensures p.0 + p.1 == buffer + incoming
    ensures |p.0| == |buffer| + n && |p.1| == |incoming| - n
  {
    assert incoming == incoming[..n] + incoming[n..];
    (buffer + incoming[..n], incoming[n..])
  }

  /** One `socketChannel.read(readBuffer)`: `true` reports end of stream (-1);
      otherwise as many waiting bytes as fit are moved, in order. */
  function Fill(r: Reader, k: Socket, now: int): (res: (Reader, Socket, bool))
    ensures res.2 <==> k.incoming == [] && k.endOfStream
    ensures res.2 ==> res.0 == r && res.1 == k
    ensures !res.2 ==>
              && res.0 == r.(buffer := res.0.buffer, lastReadTime := now)
              && res.0.buffer + res.1.incoming == r.buffer + k.incoming
              && |r.buffer| <= |res.0.buffer|
              && res.1.endOfStream == k.endOfStream
    ensures !res.2 && |r.buffer| <= r.capacity ==>
              |res.0.buffer| <= r.capacity && (|res.0.buffer| == r.capacity || res.1.incoming == [])
  {
    if k.incoming == [] && k.endOfStream then (r, k, true)
    else
      var room := if |r.buffer| <= r.capacity then r.capacity - |r.buffer| else 0;
      var n := if |k.incoming| <= room then |k.incoming| else room;
      var p := Transfer(r.buffer, k.incoming, n);
      (r.(buffer := p.0, lastReadTime := now), k.(incoming := p.1), false)
  }

  /** What the serializer makes of a frame: an object and the bytes it
      used, or a failure after reading `consumed` bytes. */
  datatype Decoded<T> = Decoded(value: T, consumed: nat) | Undecodable(consumed: nat)

  /** A completed read: an object, or `null` while a frame is incomplete. */
  datatype Frame<T> = NotYet | Object(value: T)

  datatype TcpError =
    | ConnectionClosed                  // no channel, or the peer closed its side
    | InvalidLength(length: int)        // a length of zero or less
    | TooLarge(length: int)             // a frame larger than the read buffer
    | DeserializationFailed
    | WrongByteCount(remaining: int)    // the serializer left part of the frame unread
    | SerializationFailed               // the frame does not fit the write buffer

  datatype ReadOutcome<T> = ReadOutcome(reader: Reader, socket: Socket, result: Result<Frame<T>, TcpError>)

  /** The outcome of checking a length: fine, zero or less, or too large for the buffer. */
  function CheckLength(n: int, capacity: nat): Result<bool, TcpError> {
    if n <= 0 then Failure(InvalidLength(n))
    else if n > capacity then Failure(TooLarge(n))
    else Success(true)
  }

  /** `readLength` from a buffer holding at least a prefix; the length stays
      recorded even when it is rejected. */
  function TakeLength(r: Reader, k: Socket): (o: (Reader, Socket, Result<bool, TcpError>))
    requires |r.buffer| >= LengthLength
    ensures o.1 == k && o.0.capacity == r.capacity && o.0.lastReadTime == r.lastReadTime
    ensures o.0.currentObjectLength == DecodeLength(r.buffer[..LengthLength])
    ensures r.buffer == r.buffer[..LengthLength] + o.0.buffer
    ensures o.2 == CheckLength(o.0.currentObjectLength, r.capacity)
  {
    var n := DecodeLength(r.buffer[..LengthLength]);
    assert r.buffer == r.buffer[..LengthLength] + r.buffer[LengthLength..];
    (r.(buffer := r.buffer[LengthLength..], currentObjectLength := n), k, CheckLength(n, r.capacity))
  }

  /** The length phase of `readObject`: read and check a length unless one is pending.
      `Success(false)` is the `null` returned while the prefix is incomplete. */
  function ReadLength(r: Reader, k: Socket, now: int): (o: (Reader, Socket, Result<bool, TcpError>))
    ensures r.currentObjectLength != 0 ==> o == (r, k, Success(true))
    ensures o.1.endOfStream == k.endOfStream && o.0.capacity == r.capacity
    ensures o.2 == Failure(ConnectionClosed) ==> k.incoming == [] && k.endOfStream
    ensures o.2 == Success(false) ==>
              && r.currentObjectLength == 0 && o.0.currentObjectLength == 0
              && |o.0.buffer| < LengthLength && o.0.buffer + o.1.incoming == r.buffer + k.incoming
    // `null` only while fewer than four bytes have arrived
    ensures o.2 == Success(false) && ReaderOk(r) ==> |r.buffer| + |k.incoming| < LengthLength
    // otherwise the first four bytes are the length, accepted or rejected
    ensures ReaderOk(r) && r.currentObjectLength == 0 && |r.buffer| + |k.incoming| >= LengthLength ==>
              var all := r.buffer + k.incoming;
              && o.0.currentObjectLength == DecodeLength(all[..LengthLength])
              && o.2 == CheckLength(o.0.currentObjectLength, r.capacity)
              && all == all[..LengthLength] + o.0.buffer + o.1.incoming
    ensures ReaderOk(r) && o.2.Success? ==> ReaderOk(o.0)
  {
    if r.currentObjectLength != 0 then (r, k, Success(true))
    else
      var f := if |r.buffer| < LengthLength then Fill(r, k, now) else (r, k, false);
      if f.2 then (f.0, f.1, Failure(ConnectionClosed))
      else if |f.0.buffer| < LengthLength then (f.0, f.1, Success(false))
      else
        assert (r.buffer + k.incoming)[..LengthLength] == f.0.buffer[..LengthLength];
        TakeLength(f.0, f.1)
  }

  /** Four bytes read as a length and written back are the same four bytes. */
  lemma LengthRoundTripBytes(b: seq<Byte>)
    requires |b| == LengthLength
    ensures EncodeLength(DecodeLength(b)) == b
  {
    var u := Unsigned(b);
    var x0, x1, x2, x3 := b[0] as int, b[1] as int, b[2] as int, b[3] as int;
    assert DecodeLength(b) % 0x1_0000_0000 == u;
    var low2 := x2 * 0x100 + x3;
    var low3 := x1 * 0x1_0000 + low2;
    assert u == x0 * 0x100_0000 + low3 && 0 <= low3 < 0x100_0000;
    assert u / 0x100_0000 == x0 && u % 0x100_0000 == low3;
    assert low3 / 0x1_0000 == x1 && low3 % 0x1_0000 == low2;
    assert low2 / 0x100 == x2 && low2 % 0x100 == x3;
    var e := EncodeLength(DecodeLength(b));
    assert e[0] == x0 && e[1] == x1 && e[2] == x2 && e[3] == x3;
  }

  /**
   * How a read of a complete frame, the first `n` bytes of `all`, ends:
   * the outcome of the serializer's read, and where reading resumes
   * (behind the frame, where the serializer stopped, or inside the frame
   * with the bytes behind it that were already buffered dropped). The
   * bytes still waiting on the socket are a suffix of `all` behind the frame.
   */
  ghost predicate FrameRead<T>(all: seq<Byte>, n: int, deserialize: seq<Byte> -> Decoded<T>, o: ReadOutcome<T>)
    requires 0 < n <= |all|
  {
    var frame := all[..n];
    && o.reader.currentObjectLength == 0
    && |o.socket.incoming| <= |all| - n
    && o.socket.incoming == all[|all| - |o.socket.incoming|..]
    && match deserialize(frame)
       case Undecodable(c) =>
         o.result == Failure(DeserializationFailed) && o.reader.buffer == frame[(if c <= n then c else n)..]
       case Decoded(v, used) =>
         if used == n then o.result == Success(Object(v)) && o.reader.buffer + o.socket.incoming == all[n..]
         else if used < n then
           o.result == Failure(WrongByteCount(n - used)) && o.reader.buffer + o.socket.incoming == all[used..]
         else o.result == Failure(DeserializationFailed) && o.reader.buffer == []
  }

  /** The serializer's turn once the whole frame of `currentObjectLength`
      bytes is in the buffer. */
  function Deliver<T>(r1: Reader, k1: Socket, deserialize: seq<Byte> -> Decoded<T>): (o: ReadOutcome<T>)
    requires 0 < r1.currentObjectLength <= |r1.buffer|
    ensures o.socket == k1 && o.reader == r1.(buffer := o.reader.buffer, currentObjectLength := 0)
    ensures |o.reader.buffer| <= |r1.buffer|
    ensures FrameRead(r1.buffer + k1.incoming, r1.currentObjectLength, deserialize, o)
    ensures o.result.Success? ==>
              && o.result.value.Object?
              && var frame := (r1.buffer + k1.incoming)[..r1.currentObjectLength];
              && deserialize(frame) == Decoded(o.result.value.value, r1.currentObjectLength)
              && r1.buffer + k1.incoming == frame + o.reader.buffer + k1.incoming
  {
    var length := r1.currentObjectLength;
    var all := r1.buffer + k1.incoming;
    var frame := r1.buffer[..length];
    assert all[..length] == frame;
    assert k1.incoming == all[|r1.buffer|..];
    var r2 := r1.(currentObjectLength := 0);
    match deserialize(frame)
    case Undecodable(c) =>
      ReadOutcome(r2.(buffer := frame[(if c <= length then c else length)..]), k1, Failure(DeserializationFailed))
    case Decoded(v, used) =>
      if used == length then
        assert r1.buffer[length..] + k1.incoming == all[length..];
        ReadOutcome(r2.(buffer := r1.buffer[length..]), k1, Success(Object(v)))
      else if used < length then
        assert r1.buffer[used..] + k1.incoming == all[used..];
        ReadOutcome(r2.(buffer := r1.buffer[used..]), k1, Failure(WrongByteCount(length - used)))
      else ReadOutcome(r2.(buffer := []), k1, Failure(DeserializationFailed))
  }

  /**
   * The body phase of `readObject`: wait for the whole frame, then hand
   * exactly its bytes to the serializer (the buffer's limit is moved to the
   * frame's end), which must use all of them. The reader resumes where the
   * serializer stopped: inside the frame after a short read; and after a
   * failure the limit is never restored, so the bytes behind the frame that
   * were already in the buffer are dropped. The serializer cannot read
   * past the limit; a claim to have done so counts as a failure at the
   * frame's end.
   */
  function ReadBody<T>(r: Reader, k: Socket, now: int, deserialize: seq<Byte> -> Decoded<T>): (o: ReadOutcome<T>)
    ensures o.socket.endOfStream == k.endOfStream
    ensures o.result == Success(NotYet) ==>
              o.reader.currentObjectLength == r.currentObjectLength
              && o.reader.buffer + o.socket.incoming == r.buffer + k.incoming
              && |o.reader.buffer| < r.currentObjectLength
    ensures o.result.Success? && o.result.value.Object? ==>
              && 0 < r.currentObjectLength <= |r.buffer| + |k.incoming|
              && var frame := (r.buffer + k.incoming)[..r.currentObjectLength];
              && deserialize(frame) == Decoded(o.result.value.value, r.currentObjectLength)
              && r.buffer + k.incoming == frame + o.reader.buffer + o.socket.incoming
              && o.reader.currentObjectLength == 0
    // `null` only while the frame is incomplete
    ensures ReaderOk(r) && 0 < r.currentObjectLength && |r.buffer| + |k.incoming| < r.currentObjectLength ==>
              o.result == if k.incoming == [] && k.endOfStream then Failure(ConnectionClosed) else Success(NotYet)
    ensures o.result == Success(NotYet) && ReaderOk(r) ==> |r.buffer| + |k.incoming| < r.currentObjectLength
    // a complete frame: the outcome and where reading resumes
    ensures ReaderOk(r) && 0 < r.currentObjectLength <= |r.buffer| + |k.incoming| ==>
              FrameRead(r.buffer + k.incoming, r.currentObjectLength, deserialize, o)
    ensures o.reader.capacity == r.capacity
    ensures ReaderOk(r) && r.currentObjectLength > 0 ==> ReaderOk(o.reader)
  {
    var length := r.currentObjectLength;
    var f := if |r.buffer| < length then Fill(r, k, now) else (r, k, false);
    var (r1, k1) := (f.0, f.1);
    if f.2 then ReadOutcome(r1, k1, Failure(ConnectionClosed))
    else if |r1.buffer| < length then ReadOutcome(r1, k1, Success(NotYet))
    else if length <= 0 then ReadOutcome(r1.(currentObjectLength := 0), k1, Failure(InvalidLength(length)))
    else Deliver(r1, k1, deserialize)
  }

  /** A serializer that stops one byte into a three-byte frame: the read
      fails, and the next read starts at the frame's second byte. */
  lemma ShortReadResumesInsideFrame()
    ensures var o := ReadBody(Reader([0, 0, 7, 8, 9], 16, 3, 0), Socket([], false), 0,
                              (b: seq<Byte>) => Decoded(true, 1));
            o.result == Failure(WrongByteCount(2)) && o.reader.buffer == [0, 7, 8, 9]
  {
  }

  /** A serializer that throws after one byte of a three-byte frame: the
      rest of the frame stays unread and the bytes behind it are dropped. */
  lemma FailedReadDropsBytesBehindFrame()
    ensures var o := ReadBody<bool>(Reader([0, 0, 7, 8, 9], 16, 3, 0), Socket([], false), 0,
                                    (b: seq<Byte>) => Undecodable(1));
            o.result == Failure(DeserializationFailed) && o.reader.buffer == [0, 7]
  {
  }

  /** `readObject`: a closed connection fails; otherwise the length phase
      and then the body phase, either of which may stop at `null`. */
  function ReadObject<T>(open: bool, r: Reader, k: Socket, now: int, deserialize: seq<Byte> -> Decoded<T>): (o: ReadOutcome<T>)
    ensures !open ==> o == ReadOutcome(r, k, Failure(ConnectionClosed))
    ensures o.result == Failure(ConnectionClosed) ==> !open || (o.socket.incoming == [] && k.endOfStream)
    ensures ReaderOk(r) && o.result.Success? ==> ReaderOk(o.reader)
    // nothing is lost or reordered while a frame is incomplete
    ensures o.result == Success(NotYet) ==>
              (o.reader.currentObjectLength == 0 ==> o.reader.buffer + o.socket.incoming == r.buffer + k.incoming)
    // a pending length is never read again
    ensures r.currentObjectLength != 0 ==> o == (if open then ReadBody(r, k, now, deserialize) else ReadOutcome(r, k, Failure(ConnectionClosed)))
  {
    if !open then ReadOutcome(r, k, Failure(ConnectionClosed))
    else
      var h := ReadLength(r, k, now);
      match h.2
      case Failure(e) => ReadOutcome(h.0, h.1, Failure(e))
      case Success(ready) =>
        if !ready then ReadOutcome(h.0, h.1, Success(NotYet))
        else ReadBody(h.0, h.1, now, deserialize)
  }

  // ---------------------------------------------------------------------
  // Writing

  /** The write side: queued bytes, capacity, `lastWriteTime`. */
  datatype Writer = Writer(buffer: seq<Byte>, capacity: nat, lastWriteTime: int)

  /** `send`: queue the length prefix and the serialized object behind any
      bytes already queued, and report the frame's size. */
  function Send(open: bool, w: Writer, payload: seq<Byte>, now: int): (r: (Writer, Result<int, TcpError>))
    ensures !open ==> r == (w, Failure(ConnectionClosed))
    ensures r.1.Success? <==> open && |w.buffer| + LengthLength + |payload| <= w.capacity
    ensures r.1.Success? ==>
              && r.1.value == LengthLength + |payload|
              && r.0 == Writer(w.buffer + EncodeLength(|payload|) + payload, w.capacity, now)
    ensures r.1.Failure? ==> r.0 == w
  {
    if !open then (w, Failure(ConnectionClosed))
    else if |w.buffer| + LengthLength + |payload| > w.capacity then (w, Failure(SerializationFailed))
    else (Writer(w.buffer + EncodeLength(|payload|) + payload, w.capacity, now), Success(LengthLength + |payload|))
  }

  /** `writeToSocket`: the socket takes `accepted` bytes from the front of the
      queue; `true` when the queue has been emptied. */
  function WriteToSocket(w: Writer, peer: Socket, accepted: nat): (r: (Writer, Socket, bool))
    ensures |r.0.buffer| <= |w.buffer| && r.0.buffer == w.buffer[|w.buffer| - |r.0.buffer|..]
    ensures r.1.incoming == peer.incoming + w.buffer[..|w.buffer| - |r.0.buffer|]
    ensures r.2 <==> r.0.buffer == []
    ensures accepted >= |w.buffer| ==> r.2
  {
    var n := if accepted <= |w.buffer| then accepted else |w.buffer|;
    (w.(buffer := w.buffer[n..]), peer.(incoming := peer.incoming + w.buffer[..n]), n == |w.buffer|)
  }

  lemma PrefixOfAppend(a: seq<Byte>, x: seq<Byte>)
    ensures (a + x)[..|a|] == a
  {
  }

  lemma CancelPrefix(a: seq<Byte>, x: seq<Byte>, y: seq<Byte>)
    requires a + x == a + y
    ensures x == y
  {
    assert x == (a + x)[|a|..];
  }

  /** A whole frame at the front of the stream is read as the object its
      payload carries, and the bytes behind it are left in order. */
  lemma {:induction false} ReadWholeFrame<T>(r: Reader, k: Socket, payload: seq<Byte>, rest: seq<Byte>, v: T,
                                             now: int, deserialize: seq<Byte> -> Decoded<T>)
    requires ReaderOk(r) && r.currentObjectLength == 0
    requires 0 < |payload| <= r.capacity && IsInt32(|payload|)
    requires r.buffer + k.incoming == EncodeLength(|payload|) + (payload + rest)
    requires deserialize(payload) == Decoded(v, |payload|)
    ensures var o := ReadObject(true, r, k, now, deserialize);
            && o.result == Success(Object(v))
            && o.reader.buffer + o.socket.incoming == rest
  {
    var all := r.buffer + k.incoming;
    var prefix := EncodeLength(|payload|);
    PrefixOfAppend(prefix, payload + rest);
    LengthRoundTrip(|payload|);
    var h := ReadLength(r, k, now);
    assert h.2 == Success(true) && h.0.currentObjectLength == |payload|;
    assert prefix + (h.0.buffer + h.1.incoming) == prefix + (payload + rest);
    CancelPrefix(prefix, h.0.buffer + h.1.incoming, payload + rest);
    PrefixOfAppend(payload, rest);
    var o := ReadBody(h.0, h.1, now, deserialize);
    assert ReadObject(true, r, k, now, deserialize) == o;
    assert FrameRead(payload + rest, |payload|, deserialize, o);
    assert (payload + rest)[|payload|..] == rest;
  }

  /** A frame sent on an idle connection and fully flushed is read back by
      the peer as the object whose serialization it carries. */
  lemma SendThenRead<T>(w: Writer, payload: seq<Byte>, v: T, now: int,
                        r: Reader, later: int, deserialize: seq<Byte> -> Decoded<T>)
    requires w.buffer == [] && LengthLength + |payload| <= w.capacity
    requires 0 < |payload| <= r.capacity && |payload| < 0x8000_0000
    requires r.buffer == [] && r.currentObjectLength == 0 && ReaderOk(r)
    requires deserialize(payload) == Decoded(v, |payload|)
    ensures var s := Send(true, w, payload, now);
            var f := WriteToSocket(s.0, Socket([], false), LengthLength + |payload|);
            && s.1 == Success(LengthLength + |payload|)
            && f.2
            && ReadObject(true, r, f.1, later, deserialize).result == Success(Object(v))
  {
    var s := Send(true, w, payload, now);
    var f := WriteToSocket(s.0, Socket([], false), LengthLength + |payload|);
    assert r.buffer + f.1.incoming == EncodeLength(|payload|) + (payload + []);
    ReadWholeFrame(r, f.1, payload, [], v, later, deserialize);
  }

  /**
   * A frame split across two arrivals: the first read stops at `null` with
   * the length pending, and the next read takes the body without reading
   * a length again.
   */
  lemma ResumeSkipsLength<T>(r: Reader, k: Socket, now: int, later: int, rest: seq<Byte>,
                             deserialize: seq<Byte> -> Decoded<T>)
    requires ReaderOk(r) && r.currentObjectLength > 0
    requires ReadObject(true, r, k, now, deserialize).result == Success(NotYet)
    ensures var o := ReadObject(true, r, k, now, deserialize);
            && o.reader.currentObjectLength == r.currentObjectLength
            && ReadObject(true, o.reader, Arrive(o.socket, rest), later, deserialize)
               == ReadBody(o.reader, Arrive(o.socket, rest), later, deserialize)
  {
  }

  /** The first read of a frame whose body has arrived only in part: it
      returns `null` with the length pending and every byte kept. */
  lemma {:induction false} PartialFrameWaits<T>(r: Reader, k: Socket, payload: seq<Byte>, m: nat,
                                                now: int, deserialize: seq<Byte> -> Decoded<T>)
    requires ReaderOk(r) && r.currentObjectLength == 0 && r.buffer == []
    requires m < |payload| <= r.capacity && IsInt32(|payload|)
    requires k.incoming == EncodeLength(|payload|) + payload[..m] && !k.endOfStream
    ensures var o := ReadObject(true, r, k, now, deserialize);
            && o.result == Success(NotYet)
            && o.reader.currentObjectLength == |payload|
            && o.reader.buffer + o.socket.incoming == payload[..m]
            && ReaderOk(o.reader) && !o.socket.endOfStream
  {
    var prefix := EncodeLength(|payload|);
    PrefixOfAppend(prefix, payload[..m]);
    assert (r.buffer + k.incoming)[..LengthLength] == prefix;
    LengthRoundTrip(|payload|);
    var h := ReadLength(r, k, now);
    assert h.2 == Success(true) && h.0.currentObjectLength == |payload|;
    assert prefix + (h.0.buffer + h.1.incoming) == prefix + payload[..m];
    CancelPrefix(prefix, h.0.buffer + h.1.incoming, payload[..m]);
    var o := ReadBody(h.0, h.1, now, deserialize);
    assert ReadObject(true, r, k, now, deserialize) == o;
    assert o.result == Success(NotYet);
  }

  /** A frame whose body arrives in two pieces: the first read returns
      `null` with the length pending, the second returns the object. */
  lemma {:induction false} SplitFrame<T>(r: Reader, k: Socket, payload: seq<Byte>, m: nat, v: T,
                                         now: int, later: int, deserialize: seq<Byte> -> Decoded<T>)
    requires ReaderOk(r) && r.currentObjectLength == 0 && r.buffer == []
    requires m < |payload| <= r.capacity && IsInt32(|payload|)
    requires k.incoming == EncodeLength(|payload|) + payload[..m] && !k.endOfStream
    requires deserialize(payload) == Decoded(v, |payload|)
    ensures var o1 := ReadObject(true, r, k, now, deserialize);
            && o1.result == Success(NotYet)
            && o1.reader.currentObjectLength == |payload|
            && ReadObject(true, o1.reader, Arrive(o1.socket, payload[m..]), later, deserialize).result
               == Success(Object(v))
  {
    PartialFrameWaits(r, k, payload, m, now, deserialize);
    var o1 := ReadObject(true, r, k, now, deserialize);
    var k2 := Arrive(o1.socket, payload[m..]);
    assert o1.reader.buffer + k2.incoming == payload[..m] + payload[m..];
    assert payload[..m] + payload[m..] == payload;
    PrefixOfAppend(payload, []);
    assert (o1.reader.buffer + k2.incoming)[..|payload|] == payload;
    var o2 := ReadBody(o1.reader, k2, later, deserialize);
    assert ReadObject(true, o1.reader, k2, later, deserialize) == o2;
    assert FrameRead(payload, |payload|, deserialize, o2);
  }

  // ---------------------------------------------------------------------
  // Timing

  /** The connection state the timing predicates look at. */
  datatype TcpConnection = TcpConnection(
    open: bool,                 // a socket channel is present
    reader: Reader,
    writer: Writer,
    keepAliveMillis: int,
    timeoutMillis: int)

  /** `needsKeepAlive(time)`. */
  predicate NeedsKeepAlive(c: TcpConnection, time: int) {
    c.open && c.keepAliveMillis > 0 && time - c.writer.lastWriteTime > c.keepAliveMillis
  }

  /** `isTimedOut(time)`. */
  predicate IsTimedOut(c: TcpConnection, time: int) {
    c.open && c.timeoutMillis > 0 && time - c.reader.lastReadTime > c.timeoutMillis
  }

  /** Once due, a keep-alive stays due until something is written; likewise a timeout. */
  lemma TimingPredicatesMonotone(c: TcpConnection, t1: int, t2: int)
    requires t1 <= t2
    ensures NeedsKeepAlive(c, t1) ==> NeedsKeepAlive(c, t2)
    ensures IsTimedOut(c, t1) ==> IsTimedOut(c, t2)
  {
  }

  /** A successful send restarts the keep-alive clock: no keep-alive is due
      for exactly `keepAliveMillis` after it. */
  lemma SendRestartsKeepAlive(c: TcpConnection, payload: seq<Byte>, now: int, t: int)
    requires Send(c.open, c.writer, payload, now).1.Success?
    ensures var c1 := c.(writer := Send(c.open, c.writer, payload, now).0);
            NeedsKeepAlive(c1, t) <==> c.keepAliveMillis > 0 && t > now + c.keepAliveMillis
  {
  }

  /** A read that receives bytes (or nothing, but not end of stream) restarts the timeout clock. */
  lemma ReadRestartsTimeout(c: TcpConnection, k: Socket, now: int, t: int)
    requires c.open && c.timeoutMillis > 0
    requires !(k.incoming == [] && k.endOfStream)
    ensures var c1 := c.(reader := Fill(c.reader, k, now).0);
            IsTimedOut(c1, t) <==> t > now + c.timeoutMillis
  {
  }

  /** A new connection with the default settings needs nothing before 8 s and times out after 12 s. */
  lemma DefaultTiming(r: Reader, w: Writer, t: int)
    requires r.lastReadTime == 0 && w.lastWriteTime == 0
    ensures var c := TcpConnection(true, r, w, DefaultKeepAliveMillis, DefaultTimeoutMillis);
            && (NeedsKeepAlive(c, t) <==> t > 8000)
            && (IsTimedOut(c, t) <==> t > 12000)
  {
  }
}

=== FILE: types.dfy ===
/**
 * The Java values and classes the remote-invocation layer moves around.
 * Reflection is replaced by plain data: a class is described by the few
 * facts the layer asks of it, and an object is an opaque value.
 */
module Types {

  /** Connections are opaque handles, stable enough to key caches. */
  type ConnId = nat

  /** The eight primitive classes plus `void.class` (also primitive in Java). */
  datatype PrimKind = Int | Boolean | Float | Char | Long | Short | Byte | Double | Void

  /** A Java class as the layer inspects it. */
  datatype JType =
    | Primitive(kind: PrimKind)
    | Reference(name: string, isInterface: bool, isFunctional: bool)

  const IntType: JType := Primitive(Int)

  /** `cls.isAnnotationPresent(FunctionalInterface.class)` */
  predicate IsFunctional(t: JType) {
    t.Reference? && t.isFunctional
  }

  /** `cls.isInterface()` */
  predicate IsInterface(t: JType) {
    t.Reference? && t.isInterface
  }

  /**
   * A runtime value. `Local` is an object living in this address space
   * (a hosted object or a closure); `Proxy` is a stand-in forwarding to
   * object `objectId` across connection `conn`.
   */
  datatype Value =
    | Null
    | Prim(kind: PrimKind, bits: int)
    | Text(s: string)
    | Local(handle: nat)
    | Proxy(conn: ConnId, objectId: int, cls: JType)

  /** A boxed `int`, as object ids travel in callback slots. */
  function IntV(n: int): Value {
    Prim(Int, n)
  }

  /** The wrapper class a primitive of kind `k` is boxed into. */
  function BoxName(k: PrimKind): string {
    match k
    case Int => "java.lang.Integer"
    case Boolean => "java.lang.Boolean"
    case Float => "java.lang.Float"
    case Char => "java.lang.Character"
    case Long => "java.lang.Long"
    case Short => "java.lang.Short"
    case Byte => "java.lang.Byte"
    case Double => "java.lang.Double"
    case Void => "java.lang.Void"
  }

  /**
   * `v` may be written with class `t`: a number goes with its primitive
   * class or with its box (the serializer registers one serializer for
   * both), any other object with a reference class, `null` with anything.
   */
  predicate Conforms(v: Value, t: JType) {
    match v
    case Null => true
    case Prim(k, _) => k != Void && (t == Primitive(k) || (t.Reference? && t.name == BoxName(k)))
    case _ => t.Reference?
  }

  const MaxInt32: int := 0x7fff_ffff
  const MinInt32: int := -0x8000_0000

  predicate IsInt32(x: int) {
    -0x8000_0000 <= x < 0x8000_0000
  }

  /** Java's `x + 1` on an `int`: past the largest value it wraps to the smallest. */
  function Int32Succ(x: int): (r: int)
    ensures IsInt32(r)
    ensures IsInt32(x) && x < MaxInt32 ==> r == x + 1
    ensures x == MaxInt32 ==> r == MinInt32
  {
    (x + 1 - MinInt32) % 0x1_0000_0000 + MinInt32
  }

  /**
   * `primitize(object, resClass)`: a missing result of a primitive
   * non-void class becomes that class's zero; everything else is kept.
   */
  function Primitize(v: Value, t: JType): (r: Value)
    ensures v != Null ==> r == v
    ensures v == Null ==> (r != Null <==> t.Primitive? && t.kind != Void)
    ensures r != v ==> r == Prim(t.kind, 0)
    ensures Conforms(v, t) ==> Conforms(r, t)
  {
    if v != Null then v
    else match t
      case Reference(_, _, _) => Null
      case Primitive(k) => if k == Void then Null else Prim(k, 0)
  }

  /** Applying `primitize` twice is the same as once. */
  lemma PrimitizeIdempotent(v: Value, t: JType)
    ensures Primitize(Primitize(v, t), t) == Primitize(v, t)
  {
  }

  /** Every failure the modelled code raises. */
  datatype Error =
    | AlreadyRegistered(className: string)
    | ObjectIdInUse(objectId: int)
    | UnregisteredMethod
    | IndexOutOfRange(index: int)
    | BadCast
    | NoTarget(objectId: int)
    | RemoteFailure
    | UnsupportedTransmission
    | NoAsyncExecution(transactionId: int)
    | TransactionTimeout(transactionId: int)
    | UnknownMethodId(methodId: int)
    | NegativeArraySize(length: int)
    | Malformed
    | NullObject
}

=== FILE: wrappers.dfy ===
/** Failure-compatible wrappers shared by every module of the model. */
module Wrappers {

  /** A value that may be absent (Java's `null` for a lookup that misses). */
  datatype Option<+T> = None | Some(value: T)

  /** The outcome of an operation that can raise an error. */
  datatype Result<+T, +E> = Success(value: T) | Failure(error: E) {

    predicate IsFailure() {
      Failure?
    }

    function PropagateFailure<U>(): Result<U, E>
      requires Failure?
    {
      Failure(error)
    }

    function Extract(): T
      requires Success?
    {
      value
    }
  }
}
